=== FILE: README.md ===
# rns-page-node, modelled in Dafny

rns-page-node is a Reticulum page node. It serves micron (`.mu`) pages
and plain files from two directories to remote peers. A request arrives
under a virtual path, `/page/<rel>` or `/file/<rel>`. The node keeps a
table from virtual paths to responders and rebuilds it by rescanning the
two directories. It periodically announces itself, and reads its
settings from the command line, a `key=value` configuration file and
built-in defaults.

The project models the node's core as pure functions over an in-memory
directory tree:

- **text.dfy** (`Text`): Python's `str.strip` (on the `isspace`
  characters), prefixes and suffixes, and UTF-8 length.
- **paths.dfy** (`Paths`): pathlib as the handlers use it.
  - `Split` parses a string into segments, dropping empty and `.` segments.
  - `Resolve` joins and then folds `..` lexically. A `..` at the filesystem root stays there.
  - `Admitted` is the string-prefix containment check of the handlers.
- **filesystem.dfy** (`FileSystem`): the directory tree. A node is a
  regular file (content, executable bit, readability) or a directory of
  named entries, looked up by segment path. `Walk` follows a path as
  written, `..` included, the way the kernel does for `exists()` and
  `iterdir()`.
- **scanner.dfy** (`Scanner`): `_scan_pages` and `_scan_files`.
- **handlers.dfy** (`Handlers`): `serve_default_index`, `serve_page`
  (including the script decision and the child environment) and
  `serve_file`.
- **registry.dfy** (`Registry`): `register_pages`, `register_files`, the
  handler table, and dispatch of a request to its bound responder.
- **schedule.dfy** (`Schedule`): one tick of `_announce_loop` and one
  tick of `_refresh_loop`. Time is in integer milliseconds.
- **config.dfy** (`Config`): `load_config`.
- **cli.dfy** (`Cli`): `get_config_value` and the level lookup of
  `setup_logging`.
- **wrappers.dfy** (`Wrappers`): `Option`.

The system's effects enter as parameters:

- The filesystem is a `Node` value.
- Running a script page is `Host.run`, a function from the target and the
  environment to the script's output (None when the run fails).
- The process environment and `RNS.hexrep` are fields of `Host`.
- The clock readings of a loop tick are arguments of the tick function.

Path containment is modelled as the code writes it. The resolved target
must *start with* the resolved root as a string, so
`/srv/pages2/x` passes the check for the root `/srv/pages`
(`Paths.SiblingIsAdmitted`). `Paths.Below`, containment segment by
segment, is the stronger relation; the handlers' string check is weaker
than it.

The scans follow the two roots as written, while registration and the
handlers resolve them lexically. The two agree wherever the written root
exists (`FileSystem.WalkLexical`). A root written through a directory
that does not exist, such as `nodir/../pages`, scans as empty, so none
of its pages is registered, even though its resolution `pages` may be
full of them (`Scanner.UnresolvedBaseMissing`). `/page/index.mu` then
keeps whatever binding it had, or gets the default home page when the
resolved root holds no `index.mu` (`Registry.IndexBinding`).

## Model

| member | source | states |
|---|---|---|
| Text.Strip | rns_page_node/config.py:24 | the result starts and ends with a non-whitespace character |
| Text.StripInfix | rns_page_node/config.py:24 | the stripped string is a slice of the input with nothing but whitespace cut off on either side |
| Text.StripPadded | rns_page_node/config.py:34-35 | stripping a trimmed string wrapped in any whitespace gives back exactly that string |
| Text.StripTrimmed | rns_page_node/config.py:24 | stripping is the identity on strings with no surrounding whitespace |
| Text.StripStart | rns_page_node/config.py:24 | leading whitespace before a non-whitespace character is removed, and the result starts at that character |
| Paths.Split | rns_page_node/handlers.py:46 | the segments of a path string contain neither empty nor `.` segments and are no more than its characters |
| Paths.SplitAt | rns_page_node/handlers.py:46 | a path string is cut at its first slash: the text before it is one segment (none when empty or `.`), and the rest splits on its own |
| Paths.SplitJoin | rns_page_node/core.py:132 | the POSIX text of a plain relative path splits back into the same segments |
| Paths.JoinSplit | rns_page_node/handlers.py:46 | slash-joined parsed segments split back into the same segments |
| Paths.SplitTrailingSlash | rns_page_node/handlers.py:46 | a trailing slash adds no segment |
| Paths.Canonical | rns_page_node/handlers.py:46 | resolving never lengthens a path |
| Paths.ResolveFromPlain | rns_page_node/handlers.py:46 | folding `..` over a plain base gives a plain path, with no `.`, `..` or empty segment |
| Paths.ResolveFromAppend | rns_page_node/handlers.py:46 | resolving a concatenation resolves the second part from the result of the first |
| Paths.CanonicalAppendPlain | rns_page_node/core.py:130-132 | appending plain segments commutes with resolving |
| Paths.ResolveFromDots | rns_page_node/handlers.py:46 | each `..` drops one trailing segment, and `..` at the root stays at the root |
| Paths.ClimbOut | rns_page_node/handlers.py:46 | `base/../..(k)/rest` resolves to `base` minus its last k segments (down to the root), followed by `rest` |
| Paths.Join | rns_page_node/handlers.py:46 | `base / s`: an absolute `s` replaces the base, a relative one is appended; the joined path never holds an empty or `.` segment |
| Paths.Resolve | rns_page_node/handlers.py:44 | a resolved path is plain |
| Paths.PathString | rns_page_node/handlers.py:48 | the string form of an absolute path starts with `/` |
| Paths.CutAtSlash | rns_page_node/handlers.py:48 | a string prefix between slash-separated texts is a prefix of the first segment, and is segment-wise beyond it |
| Paths.RootedPrefix | rns_page_node/handlers.py:48 | the string-prefix test on two absolute paths, restated as equality on all but the root's last segment plus a prefix test on that segment |
| Paths.Admitted | rns_page_node/handlers.py:48 | the containment check as written: the string form of the resolved target starts with the string form of the resolved root (its meaning is `Paths.AdmittedMeaning`) |
| Paths.AdmittedMeaning | rns_page_node/handlers.py:48 | containment holds for every path under the root `/`; otherwise it holds exactly when the target agrees with the root on every segment but the root's last, which need only be a string prefix of the target's segment there |
| Paths.BelowIsAdmitted | rns_page_node/handlers.py:48 | every path at or below the root passes the containment check |
| Paths.AboveIsRejected | rns_page_node/handlers.py:48 | a proper ancestor of a non-root root fails the containment check |
| Paths.SiblingIsAdmitted | rns_page_node/handlers.py:48 | `/srv/pages2/x` passes the check for root `/srv/pages` although it is not below it |
| FileSystem.LookupAppend | rns_page_node/handlers.py:46 | looking up `a + b` is looking up `b` in what `a` leads to |
| FileSystem.WalkLexical | rns_page_node/core.py:169-172 | where following a path as written (`..` included) through the tree succeeds, it reaches what the lexically resolved path names |
| FileSystem.WalkPlain | rns_page_node/core.py:169-172 | for a path with no `..`, following it as written is the plain lookup |
| FileSystem.MissingThenUp | rns_page_node/core.py:169-170 | `missing/../name` does not exist when `missing` is absent, although it resolves to `name` |
| Scanner.Hidden | rns_page_node/core.py:173 | an entry is skipped when its name starts with `.` |
| Scanner.ScanFrom | rns_page_node/core.py:172-178 | every path the scan of a directory lists lies strictly below the scan base |
| Scanner.Scan | rns_page_node/core.py:165-179 | the base is followed as written, `..` included, as `exists()` and `iterdir()` do: a base that does not exist yields the empty list, and the scan raises (None) exactly when the base exists and is a regular file |
| Scanner.ScanExactly | rns_page_node/core.py:165-195 | a path is listed iff the base exists as written, the path lies below the base, has no hidden segment, reaches a regular file, and its name is accepted (`.mu` for pages, any name for files) |
| Scanner.ServedIsFile | rns_page_node/core.py:172-178 | a relative path is served from the directory found at a place in the tree iff it is non-empty, has no hidden segment, ends in an accepted name, and that place followed by it is a regular file of the whole tree |
| Scanner.ScannedRelIsPlain | rns_page_node/core.py:172-178 | the part of a listed path below the base is a plain, non-hidden relative path |
| Scanner.UnresolvedBaseMissing | rns_page_node/core.py:167-170 | a root written `missing/../name` through an absent directory lists nothing, although it resolves to `name` |
| Scanner.ScanDistinct | rns_page_node/core.py:181-195 | no path is listed twice |
| Scanner.FilterPages | rns_page_node/core.py:177 | keeps exactly the listed paths whose name ends in `.mu` |
| Scanner.PagesAreFilteredFiles | rns_page_node/core.py:165-195 | the page scan succeeds iff the file scan does, and is the file scan restricted, in order, to `.mu` names |
| Handlers.ServeDefaultIndex | rns_page_node/handlers.py:22-31 | always the fixed default home page, whatever the request |
| Handlers.RelativePart | rns_page_node/handlers.py:45 | the request path with its six-character prefix cut off, or five characters when that prefix is absent; always a suffix of the request |
| Handlers.FirstLine | rns_page_node/handlers.py:55 | the first line is a prefix of the content, non-empty when the content is; no newline occurs before its last byte, and when it is shorter than the content it ends in a newline |
| Handlers.IsScript | rns_page_node/handlers.py:55-56 | a page counts as a script exactly when its content starts with `#!` |
| Handlers.FirstLineShebang | rns_page_node/handlers.py:55-56 | the first line starts with `#!` exactly when the whole content does |
| Handlers.ForwardedFields | rns_page_node/handlers.py:77-82 | exactly the request-data entries with a string key starting `field_` or `var_`, with their values |
| Handlers.ScriptEnv | rns_page_node/handlers.py:69-82 | the child environment holds exactly the process environment, `link_id` and `remote_identity` (hex) when given, and the forwarded fields; forwarded fields override, and nothing else of the data gets in |
| Handlers.ServePage | rns_page_node/handlers.py:34-94 | refused iff the resolved target fails containment or is not a readable regular file; never a stream; content is the page itself or the output of running it when it is an executable `#!` page |
| Handlers.ServeFile | rns_page_node/handlers.py:106-127 | refused iff the target fails containment or is not a readable regular file; otherwise a stream of that file's content whose `name` is the UTF-8 bytes of its last segment |
| Handlers.BaseName | rns_page_node/handlers.py:126 | the last segment of a path, which the path is its parent followed by; empty for `/` |
| Handlers.ScriptDecision | rns_page_node/handlers.py:53-94 | of an admitted readable page: without `#!` or without the executable bit it is returned verbatim; otherwise the script's output, or the raw page when the run fails |
| Handlers.RefusalText | rns_page_node/handlers.py:61-62 | a missing or unreadable target gets the refusal |
| Handlers.TargetOfJoined | rns_page_node/handlers.py:45-46 | a request made of prefix and slash-joined segments targets the resolution of root plus those segments |
| Handlers.OutsideRefused | rns_page_node/handlers.py:48-49 | a target failing containment is refused whatever the filesystem holds |
| Handlers.TraversalRefused | tests/test_advanced.py:128-139 | the three traversal requests `/page/../../etc/passwd`, `/page/../main.py` and `/page/./index.mu/../../../` are refused under the root `/srv/node/pages`, on every filesystem |
| Handlers.EscapeTarget | tests/test_advanced.py:129 | `/page/../../etc/passwd` resolves to `/srv/etc/passwd` |
| Handlers.SiblingTarget | tests/test_advanced.py:130 | `/page/../main.py` resolves to `/srv/node/main.py` |
| Handlers.AboveTarget | tests/test_advanced.py:131 | `/page/./index.mu/../../../` resolves to `/srv` |
| Registry.RelativeTo | rns_page_node/core.py:131-134 | defined exactly for paths below the root, and the root followed by the result is the path |
| Registry.VirtualPath | rns_page_node/core.py:129-135 | a path gets a request path iff it resolves to a place below the root, and that request path starts with the prefix |
| Registry.Bind | rns_page_node/core.py:129-140 | the table gains exactly the virtual paths of the listed paths, each bound to the handler; every other binding is kept |
| Registry.RegisterPages | rns_page_node/core.py:113-140 | succeeds iff the page scan does; the served pages become the scan and nothing but the served pages and the table changes |
| Registry.RegisterFiles | rns_page_node/core.py:142-163 | succeeds iff the file scan does; the served files become the scan and nothing but the served files and the table changes |
| Registry.PagesTable | rns_page_node/core.py:113-140 | the table after page registration: the old bindings plus exactly the request paths of the scanned pages (to the page responder) and `/page/index.mu` when the root holds no regular `index.mu` (to the default home page unless a scanned page took it); every other binding is kept |
| Registry.FilesTable | rns_page_node/core.py:142-163 | the table after file registration: the old bindings plus exactly the request paths of the scanned files, each to the file responder; every other binding is kept |
| Registry.Init | rns_page_node/core.py:57-61 | construction succeeds iff both scans do, and gives a valid state with the configured roots whose served lists are the two scans |
| Registry.InitTable | rns_page_node/core.py:57-61 | a fresh node binds exactly the scanned pages (to the page responder), the scanned files (to the file responder) and, when the pages root holds no regular `index.mu`, `/page/index.mu` (to the default home page) |
| Registry.Dispatch | rns_page_node/core.py:73-111 | answered iff the request path is bound; the default responder gives the home page, the page responder never streams and the file responder never returns page content |
| Registry.ScannedVirtualPath | rns_page_node/core.py:129-135 | every scanned path is registered (the `ValueError` branch is never taken), under the prefix plus the POSIX form of its place below the root |
| Registry.PagesBound | rns_page_node/core.py:129-140 | after registration every served page is bound to the page responder |
| Registry.FilesBound | rns_page_node/core.py:151-163 | after registration every served file is bound to the file responder |
| Registry.KeysNeverShrink | rns_page_node/core.py:136-140 | re-registration never unbinds a path, so a deleted page stays bound |
| Registry.PagesLeaveFilesAlone | rns_page_node/core.py:122-140 | page registration leaves every `/file/` binding exactly as it was |
| Registry.FilesLeavePagesAlone | rns_page_node/core.py:157-163 | file registration leaves every `/page/` binding exactly as it was |
| Registry.IndexBinding | rns_page_node/core.py:120-140 | without a regular `index.mu` in the resolved root, `/page/index.mu` goes to the default home page; with one it goes to the page responder when the root as written exists, and otherwise keeps whatever binding it had |
| Registry.TargetOfServed | rns_page_node/handlers.py:44-48 | the virtual path of a served entry leads the handler back to that entry, which passes containment |
| Registry.ServedFileRoundTrip | rns_page_node/core.py:151-163 | requesting a served file's virtual path streams that very file, named with the UTF-8 bytes of its own name, or refuses when it is unreadable |
| Registry.ServedPageRoundTrip | rns_page_node/core.py:129-140 | requesting a served page's virtual path is answered from that very page; it is refused iff unreadable, and a page without `#!` comes back verbatim |
| Schedule.AnnounceIntervalMs | rns_page_node/core.py:203 | minutes times 60 s, with non-positive minutes clamped to 0 |
| Schedule.AnnounceDue | rns_page_node/core.py:207-210 | with a non-positive interval every tick whose clock has not gone back is due; with a positive one nothing is due within an interval of a recorded announce |
| Text.Utf8 | rns_page_node/core.py:214 | encoding never makes a string shorter |
| Text.Utf8Ascii | rns_page_node/handlers.py:126 | an ASCII string is encoded byte for byte |
| Text.Utf8Append | rns_page_node/core.py:214 | the encoding of a concatenation is the concatenation of the encodings |
| Schedule.AnnounceData | rns_page_node/core.py:212-217 | application data is sent iff the name is present and non-empty, and then holds at least its characters' bytes |
| Schedule.AnnounceTick | rns_page_node/core.py:201-232 | the loop stops iff a due announce crashes; otherwise the wait is the time left until the next announce is due (0 before any announce), raised to at least 1 s and cut to at most 60 s |
| Schedule.AnnounceRecordsOnlySuccess | rns_page_node/core.py:207-223 | the last-announce time moves only on a successful due announce, and then to its finishing time |
| Schedule.NoEarlyAnnounce | rns_page_node/core.py:207-210 | within an interval of a recorded announce a tick announces nothing, whatever the outcome would be |
| Schedule.WaitReachesDeadline | rns_page_node/core.py:224-230 | unless capped at 60 s, the wait reaches the next announce's due time |
| Schedule.AnnouncementsSpaced | rns_page_node/core.py:205-230 | over any run with a monotone clock, recorded announces are at least one interval apart |
| Schedule.RefreshDue | rns_page_node/core.py:239-248 | a disabled axis (interval 0 or less) is never due; an enabled one is due once its interval has elapsed |
| Schedule.AxisWait | rns_page_node/core.py:253-260 | an axis waits at least half a second |
| Schedule.RefreshWait | rns_page_node/core.py:252-271 | the wait lies between 0.5 s and 60 s, is 1 s when both axes are disabled, and is no later than either enabled axis's wait |
| Schedule.RefreshWaitReachesDeadline | rns_page_node/core.py:252-271 | unless capped at 60 s, after the wait some enabled rescan is due |
| Schedule.RefreshTick | rns_page_node/core.py:234-273 | a continuing tick waits between 0.5 s and 60 s, keeps the intervals and a valid node state |
| Schedule.DueAxisRescans | rns_page_node/core.py:239-250 | a due axis whose rescan succeeds serves the new scan and records the rescan's finishing time; an axis not due keeps its served list and time; the roots never change, and the wait is computed from the recorded times |
| Schedule.DueAxesRegister | rns_page_node/core.py:239-250 | the node a tick leaves is what the due registrations build, pages before files |
| Schedule.DisabledAxisIdle | rns_page_node/core.py:239-250 | a disabled axis never rescans: its served list and last-rescan time are untouched |
| Schedule.NothingDueIsIdle | rns_page_node/core.py:238-250 | a tick with nothing due changes nothing and continues |
| Schedule.RefreshStopsOnlyOnFailure | rns_page_node/core.py:236-273 | the loop ends iff a due rescan raises, that is when its root is a regular file |
| Config.FirstEquals | rns_page_node/config.py:33 | the index of the first `=`, or the length when there is none |
| Config.ParseLine | rns_page_node/config.py:24-37 | a line contributes only a pair with a non-empty trimmed key free of `=` and not starting `#`, and a non-empty trimmed value |
| Config.KeyInsideLine | rns_page_node/config.py:33-34 | the key cut from a trimmed line holds no `=` and starts with the line's first character |
| Config.Collect | rns_page_node/config.py:36-37 | the contributed pairs stored into a dict in file order |
| Config.CollectKeys | rns_page_node/config.py:36-37 | the stored keys are exactly the keys of the contributed pairs |
| Config.CollectLastWins | rns_page_node/config.py:37 | a key holds the value of the last pair with that key |
| Config.LastPairWith | rns_page_node/config.py:37 | every stored entry comes from some contributed pair |
| Config.LoadConfig | rns_page_node/config.py:20-43 | an unopenable file gives the empty configuration; every stored key and value is non-empty and trimmed, and keys hold no `=` |
| Config.LoadConfigMeaning | rns_page_node/config.py:23-37 | the configuration holds exactly the keys some line contributes, each with its last contributing line's value |
| Config.PairLineParses | rns_page_node/config.py:24-37 | a `key = value` line with any whitespace around key, `=` and value reads back as exactly that pair |
| Config.EqualsAfterKey | rns_page_node/config.py:33 | the line is cut at the `=` that follows the key |
| Config.CommentIgnored | rns_page_node/config.py:25-26 | a comment line contributes nothing, whatever it contains |
| Config.NoEqualsIgnored | rns_page_node/config.py:27-32 | a line without `=` contributes nothing |
| Config.SampleFileLoads | tests/test_advanced.py:162-189 | a file of `key = value` lines, comments and `=`-less lines loads as exactly the intended pairs, later keys winning |
| Config.KeyValueLineParses | tests/test_advanced.py:175 | `k + " = " + v` reads back as `(k, v)` |
| Cli.ConfigValue | rns_page_node/cli.py:116-128 | the result is the command-line value, the default, or the configuration entry as the setting's type parses it |
| Cli.CommandLineWins | rns_page_node/cli.py:116-117 | a command-line value differing from its default always wins |
| Cli.ConfigStringUsed | rns_page_node/cli.py:118-122 | a string setting left at its default takes the configuration's entry |
| Cli.ConfigIntUsed | rns_page_node/cli.py:118-128 | an integer setting left at its default takes the entry when it parses, and falls back to the default when it does not |
| Cli.MissingKeyDefault | rns_page_node/cli.py:128 | without a configuration entry the default stands |
| Cli.ConfigIntRoundTrip | rns_page_node/cli.py:120-121 | an integer of at most 4300 digits written into the configuration, with any whitespace around it, is read back as itself |
| Cli.ParseInt | rns_page_node/cli.py:121 | a string is read as an integer only when what remains after stripping whitespace holds between 1 and 4300 digits |
| Cli.ParseIntExact | rns_page_node/cli.py:121 | a string reads as `v` iff, stripped, it is a run of digits with single underscores between digits, optionally after one sign, of at most 4300 digits, spelling `v` (negated after `-`) |
| Cli.TooManyDigits | rns_page_node/cli.py:121-123 | a string with more than 4300 digits is refused, so the setting keeps its default |
| Cli.LongIntStringRefused | rns_page_node/cli.py:121 | `int(str(n))` raises once `str(n)` has more than 4300 digits |
| Cli.Digits | rns_page_node/cli.py:121 | the decimal form of a natural number is a non-empty run of ASCII digits |
| Cli.DigitsValueOfDigits | rns_page_node/cli.py:121 | reading the decimal form of a natural number gives the number back |
| Cli.ParseIntRoundTrip | rns_page_node/cli.py:121 | `int(str(n))` is `n` for every integer of at most 4300 digits, with any surrounding whitespace |
| Cli.UpperChar | rns_page_node/cli.py:145 | lower-case ASCII letters go to upper case, and only letters that upper-case to ASCII capitals give one |
| Cli.Upper | rns_page_node/cli.py:145 | upper-casing works character by character and keeps the length |
| Cli.LevelFor | rns_page_node/cli.py:138-145 | a level other than INFO is chosen only when the upper-cased name is that level's name, and a name that upper-cases to a level's name selects that level |
| Cli.DotlessNameSelectsLevel | rns_page_node/cli.py:145 | `crıtıcal`, spelled with dotless i, upper-cases to CRITICAL and selects it |
| Cli.LevelLookupIgnoresCase | rns_page_node/cli.py:145 | a level's name in any mix of upper and lower case selects that level |
| Cli.UnknownIsInfo | rns_page_node/cli.py:145 | a name that upper-cases to none of the five level names selects INFO |

## Left out

- Symbolic links are not modelled. The tree has files and directories only, so `resolve()` is lexical and `relative_to`'s `ValueError` branch (rns_page_node/core.py:133-134, 155-156) is unreachable (`Registry.ScannedVirtualPath`).
- The POSIX special case of a path starting with exactly two slashes is not modelled. Every path resolves under a single `/`.
- Directory permissions are not modelled. A scan reads every directory, and failure to list one is not represented.
- The fallback read of rns_page_node/handlers.py:96-103 is left out. Once a page has been opened, either its content was returned or `file_content` was set, so those lines cannot be reached.
- Running a script (`subprocess.run`) is the `Host.run` parameter. A run that raises is its None. The actual execution, its exit status and its timing are not modelled.
- `os.access(..., X_OK)` is the file's `executable` flag, and "can be opened" is its `readable` flag. Both are fixed per file rather than per caller.
- `os.environ` and `RNS.hexrep` are fields of `Host`. The hex form of an identity is whatever that function gives.
- A file handle, as streamed by `serve_file`, is modelled as the file's content.
- The RNS destination, announces on the wire, links, identities, request IDs and the `auto_compress` setting are left out. The handler table is a map from path string to responder; the transport's hashing of handler paths is not modelled.
- The two loop threads, the lock, the stop event, `shutdown` and thread joins are left out. Each loop is modelled one tick at a time. A stop request is the caller not running the next tick.
- Schedule.AnnounceTick: the clock is read at three points of a tick (`now`, `sentAt`, `waitFrom`). These are exactly the loop's three `time.time()` calls.
- Schedule.RefreshTick: the two `time.time()` calls of the wait computation are taken as one reading (`waitFrom`).
- Schedule.RefreshTick: both rescans of one tick read the same tree `fs`. In rns_page_node/core.py:239-250, `register_pages` and `register_files` run one after the other, and the tree may change between them.
- Schedule: times are integer milliseconds rather than floating-point seconds, so sub-millisecond timing and float rounding are not modelled.
- Schedule.AnnounceData: encodes the name with a UTF-8 length bound only, not the exact byte sequence of every code point beyond what `Text.Utf8Char` and `Text.Utf8Ascii` state.
- Registry: served lists hold segment paths rather than the strings `str(entry)` builds. Each is the configured root joined to the working directory, followed by the relative segments. `Path(full_path).resolve()` (rns_page_node/core.py:130, 152) treats the two alike. The string form `Paths.PathString` agrees with `str(entry)` only for an absolute root; for a relative root such as `test_advanced_tmp/pages`, `str(entry)` is relative while the modelled path carries the working directory in front.
- Logging (`RNS.log`, `RNS.loglevel`), `setup_parser`, the argument parser itself, and the program entry point of rns_page_node/main.py are left out.
- Names are taken to be valid Unicode. Python decodes a file name or an argument that is not valid UTF-8 with surrogate escapes. Encoding such a name then raises `UnicodeEncodeError`. In `serve_file` (rns_page_node/handlers.py:126) that error is not an `OSError`, so it propagates to the caller. In the announce (rns_page_node/core.py:211-223) it is caught as a `ValueError`, which is the `Rejected` outcome of `Schedule.AnnounceTick`: the announce is skipped and `last_announce` keeps its value. The model cannot represent such a name in either place.
- Cli.ParseInt: accepts ASCII digits only. Python's `int()` also accepts other Unicode decimal digits.
- Cli.ParseIntRoundTrip: holds for integers of at most 4300 digits. That is CPython's default `sys.get_int_max_str_digits()`; a process that changes the limit is not modelled.
- Cli.UpperChar: covers ASCII letters and the two non-ASCII letters whose capital is an ASCII letter (dotless i, long s). Other characters are kept as they are. Python upper-cases them too, but no other character can upper-case into one of the five level names, so the lookup is unaffected.
- Config.LoadConfig: the file arrives as its lines already split. A file that fails part-way through is represented by the lines read before the failure.

=== FILE: cli.dfy ===
/** The two decisions of `cli.py` that are not argument-parser plumbing:
    which of command line, configuration file and default a setting comes
    from, and which logging level a level name selects. */
module Cli {
  import opened Wrappers
  import opened Text
  import opened Config

  /** `get_config_value`: a command-line value that differs from its
      default wins; otherwise the configuration's entry when there is one
      and `parse` accepts it; otherwise the default. `parse` is the
      conversion to the setting's type (`str` accepts everything, `int`
      is `ParseInt`). */
  function ConfigValue<T(==)>(arg: T, default: T, key: string, config: ConfigMap,
                              parse: string -> Option<T>): (r: T)
    ensures r == arg || r == default || (key in config && parse(config[key]) == Some(r))
  {
    if arg != default then arg
    else if key in config && parse(config[key]).Some? then parse(config[key]).value
    else default
  }

  /** The conversion of a `str` setting: every string is accepted. */
  function AsString(s: string): Option<Option<string>> {
    Some(Some(s))
  }

  /** A string setting whose command-line default may be None. */
  function ConfigString(arg: Option<string>, default: Option<string>, key: string, config: ConfigMap): Option<string> {
    ConfigValue(arg, default, key, config, AsString)
  }

  function ConfigInt(arg: int, default: int, key: string, config: ConfigMap): int {
    ConfigValue(arg, default, key, config, ParseInt)
  }

  /** The command line wins whenever it differs from its default. */
  lemma CommandLineWins<T>(arg: T, default: T, key: string, config: ConfigMap, parse: string -> Option<T>)
    requires arg != default
    ensures ConfigValue(arg, default, key, config, parse) == arg
  {
  }

  /** Left at its default, a string setting takes the configuration's entry. */
  lemma ConfigStringUsed(default: Option<string>, key: string, config: ConfigMap)
    requires key in config
    ensures ConfigString(default, default, key, config) == Some(config[key])
  {
  }

  /** Left at its default, an integer setting takes the configuration's
      entry when it reads as an integer, and the default when it does not. */
  lemma ConfigIntUsed(default: int, key: string, config: ConfigMap)
    requires key in config
    ensures ParseInt(config[key]).Some? ==> ConfigInt(default, default, key, config) == ParseInt(config[key]).value
    ensures ParseInt(config[key]).None? ==> ConfigInt(default, default, key, config) == default
  {
  }

  /** Without an entry, the default stands. */
  lemma MissingKeyDefault<T>(default: T, key: string, config: ConfigMap, parse: string -> Option<T>)
    requires key !in config
    ensures ConfigValue(default, default, key, config, parse) == default
  {
  }

  /** An integer written in the configuration, with or without blanks
      around it, is read back as itself when `int()` accepts its length. */
  lemma ConfigIntRoundTrip(default: int, key: string, config: ConfigMap, n: int, w1: string, w2: string)
    requires AllSpace(w1) && AllSpace(w2) && DigitCount(IntToString(n)) <= MaxStrDigits
    requires key in config && config[key] == w1 + IntToString(n) + w2
    ensures ConfigInt(default, default, key, config) == n
  {
    ParseIntRoundTrip(n, w1, w2);
  }

  predicate IsDigit(c: char) {
    '0' <= c <= '9'
  }

  /** The body of an integer literal as `int()` takes it: ASCII digits,
      single underscores allowed only between two digits. */
  predicate DigitRun(s: string) {
    && |s| > 0
    && IsDigit(s[0]) && IsDigit(s[|s| - 1])
    && (forall i :: 0 <= i < |s| ==> IsDigit(s[i]) || s[i] == '_')
    && (forall i :: 0 <= i < |s| - 1 ==> !(s[i] == '_' && s[i + 1] == '_'))
  }

  /** CPython's default `int_max_str_digits`: `int()` refuses a decimal
      string with more digits than this. */
  const MaxStrDigits: nat := 4300

  /** How many digits `s` holds; CPython counts neither the sign nor
      underscores against the limit. */
  function DigitCount(s: string): (n: nat)
    ensures n <= |s|
  {
    if s == [] then 0
    else (if IsDigit(s[0]) then 1 else 0) + DigitCount(s[1..])
  }

  /** A string of digits only counts every character. */
  lemma {:induction false} AllDigitsCount(s: string)
    requires forall i :: 0 <= i < |s| ==> IsDigit(s[i])
    ensures DigitCount(s) == |s|
  {
    if s != [] {
      AllDigitsCount(s[1..]);
    }
  }

  /** A digit run holds at least one digit. */
  lemma DigitRunCounts(s: string)
    requires |s| > 0 && IsDigit(s[0])
    ensures DigitCount(s) > 0
  {
  }

  /** The number the digits of `s` spell, underscores skipped. */
  function DigitsValue(s: string): nat
    decreases |s|
  {
    if s == [] then 0
    else
      var c := s[|s| - 1];
      var rest := DigitsValue(s[..|s| - 1]);
      if IsDigit(c) then rest * 10 + (c as int - '0' as int) else rest
  }

  /** Python's `int(s)` for a string: surrounding whitespace is ignored,
      one optional sign, then a digit run of at most `MaxStrDigits`
      digits. None where `int()` raises `ValueError`. */
  function ParseInt(s: string): (r: Option<int>)
    ensures r.Some? ==> 0 < DigitCount(Strip(s)) <= MaxStrDigits
  {
    var t := Strip(s);
    if |t| > 0 && (t[0] == '+' || t[0] == '-') then
      var body := t[1..];
      var v: int := DigitsValue(body);
      if DigitRun(body) && DigitCount(body) <= MaxStrDigits then
        DigitRunCounts(body);
        Some(if t[0] == '-' then -v else v)
      else None
    else if DigitRun(t) && DigitCount(t) <= MaxStrDigits then
      DigitRunCounts(t);
      Some(DigitsValue(t))
    else None
  }

  /** The integer literals `int()` accepts once whitespace is stripped:
      a digit run, or a sign followed by one, within the digit limit, read
      as the number the digits spell, negated after a minus sign. */
  predicate Literal(t: string, v: int) {
    || (DigitRun(t) && DigitCount(t) <= MaxStrDigits && v == DigitsValue(t))
    || (&& |t| > 0 && (t[0] == '+' || t[0] == '-')
        && DigitRun(t[1..]) && DigitCount(t[1..]) <= MaxStrDigits
        && v == (if t[0] == '-' then -(DigitsValue(t[1..]) as int) else DigitsValue(t[1..])))
  }

  /** `ParseInt` reads exactly the literals, and reads each as its value. */
  lemma ParseIntExact(s: string, v: int)
    ensures ParseInt(s) == Some(v) <==> Literal(Strip(s), v)
  {
  }

  /** A string with more digits than the limit is refused, whatever its
      digits spell. */
  lemma TooManyDigits(s: string)
    requires DigitCount(Strip(s)) > MaxStrDigits
    ensures ParseInt(s) == None
  {
  }

  /** The decimal digits of a natural number, most significant first. */
  function Digits(n: nat): (s: string)
    ensures |s| > 0 && forall i :: 0 <= i < |s| ==> IsDigit(s[i])
    decreases n
  {
    var d := ['0' + (n % 10) as char];
    if n < 10 then d else Digits(n / 10) + d
  }

  /** `str(n)`. */
  function IntToString(n: int): string {
    if n < 0 then "-" + Digits(-n) else Digits(n)
  }

  /** Reading the digits of `n` gives `n` back. */
  lemma {:induction false} DigitsValueOfDigits(n: nat)
    ensures DigitsValue(Digits(n)) == n
    decreases n
  {
    var d := ['0' + (n % 10) as char];
    if n >= 10 {
      var s := Digits(n);
      assert s == Digits(n / 10) + d;
      assert s[..|s| - 1] == Digits(n / 10);
      DigitsValueOfDigits(n / 10);
    }
  }

  /** Past the limit, `str(n)` no longer reads back: `int()` refuses it. */
  lemma LongIntStringRefused(n: int)
    requires DigitCount(IntToString(n)) > MaxStrDigits
    ensures ParseInt(IntToString(n)) == None
  {
    IntStringTrimmed(n);
    StripTrimmed(IntToString(n));
  }

  lemma DigitsAreRun(n: nat)
    ensures DigitRun(Digits(n))
  {
  }

  /** Whitespace around a trimmed string does not change how it parses. */
  lemma ParseIntIgnoresPadding(w1: string, s: string, w2: string)
    requires AllSpace(w1) && AllSpace(w2) && Trimmed(s)
    ensures ParseInt(w1 + s + w2) == ParseInt(s)
  {
    StripPadded(w1, s, w2);
    StripTrimmed(s);
  }

  /** A digit run has no whitespace around it. */
  lemma DigitRunTrimmed(d: string)
    requires DigitRun(d)
    ensures Trimmed(d) && Trimmed("-" + d)
  {
    var s := "-" + d;
    assert s[|s| - 1] == d[|d| - 1];
  }

  /** A digit run within the limit reads as the number it spells. */
  lemma DigitRunParses(d: string)
    requires DigitRun(d) && DigitCount(d) <= MaxStrDigits
    ensures ParseInt(d) == Some(DigitsValue(d))
  {
    DigitRunTrimmed(d);
    StripTrimmed(d);
    assert d[0] != '+' && d[0] != '-';
  }

  /** A minus sign before a digit run within the limit negates the number
      it spells. */
  lemma NegatedRunParses(d: string)
    requires DigitRun(d) && DigitCount(d) <= MaxStrDigits
    ensures ParseInt("-" + d) == Some(-(DigitsValue(d) as int))
  {
    var s := "-" + d;
    DigitRunTrimmed(d);
    StripTrimmed(s);
    assert s[0] == '-' && s[1..] == d;
  }

  /** `str(n)` has no whitespace around it. */
  lemma IntStringTrimmed(n: int)
    ensures Trimmed(IntToString(n))
  {
    var d := Digits(if n < 0 then -n else n);
    assert IsDigit(d[0]) && IsDigit(d[|d| - 1]);
    if n < 0 {
      var s := "-" + d;
      assert s[|s| - 1] == d[|d| - 1];
    }
  }

  /** `str(n)` holds as many digits as the decimal form of `|n|` has. */
  lemma IntStringDigits(n: int)
    ensures DigitCount(IntToString(n)) == |Digits(if n < 0 then -n else n)|
  {
    var d := Digits(if n < 0 then -n else n);
    AllDigitsCount(d);
    if n < 0 {
      assert IntToString(n)[1..] == d;
    }
  }

  /** `int(str(n)) == n` for every `n` within the digit limit. */
  lemma IntStringParses(n: int)
    requires DigitCount(IntToString(n)) <= MaxStrDigits
    ensures ParseInt(IntToString(n)) == Some(n)
  {
    var m: nat := if n < 0 then -n else n;
    var d := Digits(m);
    DigitsAreRun(m);
    DigitsValueOfDigits(m);
    IntStringDigits(n);
    AllDigitsCount(d);
    if n < 0 {
      NegatedRunParses(d);
    } else {
      DigitRunParses(d);
    }
  }

  /** `int(str(n)) == n`, whitespace around the number included, for
      every `n` within the digit limit. */
  lemma ParseIntRoundTrip(n: int, w1: string, w2: string)
    requires AllSpace(w1) && AllSpace(w2) && DigitCount(IntToString(n)) <= MaxStrDigits
    ensures ParseInt(w1 + IntToString(n) + w2) == Some(n)
  {
    var s := IntToString(n);
    IntStringTrimmed(n);
    IntStringParses(n);
    ParseIntIgnoresPadding(w1, s, w2);
  }

  /** The logging levels a name can select. */
  datatype LogLevel = Critical | Error | Warning | Info | Debug

  /** The name each level is looked up by. */
  function LevelName(l: LogLevel): string {
    match l
    case Critical => "CRITICAL"
    case Error => "ERROR"
    case Warning => "WARNING"
    case Info => "INFO"
    case Debug => "DEBUG"
  }

  /** `str.upper()` on the characters that matter to the lookup: a-z and
      the two non-ASCII letters whose capital is an ASCII letter (dotless
      i and long s). Every other character is kept as it is. */
  function UpperChar(c: char): (u: char)
    ensures 'a' <= c <= 'z' ==> u as int == c as int - 32
    ensures 'A' <= u <= 'Z' ==> 'A' <= c <= 'Z' || 'a' <= c <= 'z' || c == '\U{131}' || c == '\U{17f}'
  {
    if 'a' <= c <= 'z' then (c as int - 32) as char
    else if c == '\U{131}' then 'I'
    else if c == '\U{17f}' then 'S'
    else c
  }

  function Upper(s: string): (u: string)
    ensures |u| == |s| && forall i :: 0 <= i < |s| ==> u[i] == UpperChar(s[i])
  {
    seq(|s|, i requires 0 <= i < |s| => UpperChar(s[i]))
  }

  /** `setup_logging`: the level whose name is the upper-cased argument,
      INFO for anything else. */
  function LevelFor(name: string): (l: LogLevel)
    ensures l != Info ==> Upper(name) == LevelName(l)
    ensures forall k :: Upper(name) == LevelName(k) ==> l == k
  {
    var u := Upper(name);
    if u == "CRITICAL" then Critical
    else if u == "ERROR" then Error
    else if u == "WARNING" then Warning
    else if u == "DEBUG" then Debug
    else Info
  }

  /** The lookup ignores case: a level's name in any mix of cases selects it. */
  lemma LevelLookupIgnoresCase(l: LogLevel, name: string)
    requires |name| == |LevelName(l)|
    requires forall i :: 0 <= i < |name| ==>
      name[i] == LevelName(l)[i] || name[i] as int == LevelName(l)[i] as int + 32
    ensures LevelFor(name) == l
  {
    var n := LevelName(l);
    forall i | 0 <= i < |name| ensures UpperChar(name[i]) == n[i] {
      assert 'A' <= n[i] <= 'Z';
    }
    assert Upper(name) == n;
  }

  /** Upper-casing reaches the non-ASCII letters too: "crıtıcal", with
      dotless i, selects CRITICAL. */
  lemma DotlessNameSelectsLevel()
    ensures LevelFor("cr\U{131}t\U{131}cal") == Critical
  {
    assert Upper("cr\U{131}t\U{131}cal") == LevelName(Critical);
  }

  /** Any name that is not one of the five, in any case, selects INFO. */
  lemma UnknownIsInfo(name: string)
    requires forall l :: Upper(name) != LevelName(l)
    ensures LevelFor(name) == Info
  {
    assert Upper(name) != LevelName(Critical);
  }
}

=== FILE: config.dfy ===
/** `load_config` of `config.py`: a line-oriented `key = value` reader.
    The file is given as the lines it was read as; a file that cannot be
    opened is `None`, and a file that fails part-way contributes the lines
    read before the failure. */
module Config {
  import opened Wrappers
  import opened Text

  type ConfigMap = map<string, string>

  /** The index of the first '=' of `s`, or |s| when there is none. */
  function FirstEquals(s: string): (i: nat)
    ensures i <= |s|
    ensures '=' !in s[..i]
    ensures i < |s| ==> s[i] == '='
  {
    if |s| == 0 || s[0] == '=' then 0
    else
      var i := 1 + FirstEquals(s[1..]);
      assert s[..i] == [s[0]] + s[1..][..i - 1];
      i
  }

  /** The key/value pair a line contributes, if any: the stripped line is
      skipped when empty, a comment, or without '='; otherwise it is cut at
      its first '=' and both halves are stripped; an empty half drops the
      pair. */
  function ParseLine(line: string): (r: Option<(string, string)>)
    ensures r.Some? ==>
      && r.value.0 != "" && r.value.1 != ""
      && Trimmed(r.value.0) && Trimmed(r.value.1)
      && '=' !in r.value.0
      && r.value.0[0] != '#'
  {
    var s := Strip(line);
    if s == "" || s[0] == '#' then None
    else
      var i := FirstEquals(s);
      if i == |s| then None
      else
        var key := Strip(s[..i]);
        var value := Strip(s[i + 1..]);
        if key == "" || value == "" then None
        else
          assert '=' !in key && key[0] != '#' by { KeyInsideLine(s, i, key); }
          Some((key, value))
  }

  /** The key of a line cut at its first '=' is a prefix of the part
      before it and, the line being trimmed, starts where the line starts. */
  lemma KeyInsideLine(s: string, i: nat, key: string)
    requires Trimmed(s) && 0 < i <= |s| && '=' !in s[..i] && key == Strip(s[..i])
    ensures '=' !in key
    ensures key != "" && key[0] == s[0]
  {
    var p := s[..i];
    assert "" + p == p;
    StripStart("", p);
    assert key == p[..|p| - TrailingSpace(p)];
    forall j | 0 <= j < |key| ensures key[j] != '=' {
      assert key[j] == p[j] && p[j] in p;
    }
  }

  type Pair = (string, string)

  /** Storing pairs in turn, so a later pair overwrites an earlier one
      with the same key. */
  function Collect(ps: seq<Option<Pair>>): ConfigMap
    decreases |ps|
  {
    if ps == [] then map[]
    else
      var m := Collect(ps[..|ps| - 1]);
      match ps[|ps| - 1]
      case None => m
      case Some((k, v)) => m[k := v]
  }

  /** No later pair has the key of pair `i`. */
  predicate LastWith(ps: seq<Option<Pair>>, i: nat)
    requires i < |ps| && ps[i].Some?
  {
    forall j :: i < j < |ps| && ps[j].Some? ==> ps[j].value.0 != ps[i].value.0
  }

  /** The collected map holds exactly the keys of the pairs. */
  lemma {:induction false} CollectKeys(ps: seq<Option<Pair>>)
    ensures forall k :: k in Collect(ps) <==> exists i :: 0 <= i < |ps| && ps[i].Some? && ps[i].value.0 == k
    decreases |ps|
  {
    if ps != [] {
      var n := |ps| - 1;
      var init := ps[..n];
      CollectKeys(init);
      forall k ensures k in Collect(ps) <==> exists i :: 0 <= i < |ps| && ps[i].Some? && ps[i].value.0 == k {
        if k in Collect(ps) && !(ps[n].Some? && ps[n].value.0 == k) {
          assert k in Collect(init);
          var i :| 0 <= i < n && init[i].Some? && init[i].value.0 == k;
          assert ps[i] == init[i];
        }
        if exists i :: 0 <= i < |ps| && ps[i].Some? && ps[i].value.0 == k {
          var i :| 0 <= i < |ps| && ps[i].Some? && ps[i].value.0 == k;
          if i < n {
            assert init[i] == ps[i];
          }
        }
      }
    }
  }

  /** Each key holds the value of the last pair with that key. */
  lemma {:induction false} CollectLastWins(ps: seq<Option<Pair>>, i: nat)
    requires i < |ps| && ps[i].Some? && LastWith(ps, i)
    ensures ps[i].value.0 in Collect(ps) && Collect(ps)[ps[i].value.0] == ps[i].value.1
    decreases |ps|
  {
    var n := |ps| - 1;
    var init := ps[..n];
    if i < n {
      assert init[i] == ps[i];
      assert LastWith(init, i) by {
        forall j | i < j < |init| && init[j].Some? ensures init[j].value.0 != init[i].value.0 {
          assert init[j] == ps[j];
        }
      }
      CollectLastWins(init, i);
    }
  }

  /** A key's value comes from the last pair with that key. */
  lemma LastPairWith(ps: seq<Option<Pair>>, k: string) returns (j: nat)
    requires k in Collect(ps)
    ensures j < |ps| && ps[j] == Some((k, Collect(ps)[k]))
  {
    CollectKeys(ps);
    var i :| 0 <= i < |ps| && ps[i].Some? && ps[i].value.0 == k;
    j := LastFrom(ps, i);
    CollectLastWins(ps, j);
  }

  lemma LastFrom(ps: seq<Option<Pair>>, i: nat) returns (j: nat)
    requires i < |ps| && ps[i].Some?
    ensures i <= j < |ps| && ps[j].Some? && ps[j].value.0 == ps[i].value.0 && LastWith(ps, j)
    decreases |ps| - i
  {
    if exists j' :: i < j' < |ps| && ps[j'].Some? && ps[j'].value.0 == ps[i].value.0 {
      var j' :| i < j' < |ps| && ps[j'].Some? && ps[j'].value.0 == ps[i].value.0;
      j := LastFrom(ps, j');
    } else {
      j := i;
    }
  }

  /** What each line contributes, in order. */
  function Pairs(lines: seq<string>): (ps: seq<Option<Pair>>)
    ensures |ps| == |lines| && forall i :: 0 <= i < |lines| ==> ps[i] == ParseLine(lines[i])
  {
    seq(|lines|, i requires 0 <= i < |lines| => ParseLine(lines[i]))
  }

  /** `load_config`: an unopenable file gives the empty configuration;
      otherwise every line's pair is stored in turn. */
  function LoadConfig(file: Option<seq<string>>): (m: ConfigMap)
    ensures file.None? ==> m == map[]
    ensures forall k :: k in m ==> k != "" && m[k] != "" && '=' !in k && Trimmed(k) && Trimmed(m[k])
  {
    match file
    case None => map[]
    case Some(lines) =>
      var m := Collect(Pairs(lines));
      forall k | k in m ensures k != "" && m[k] != "" && '=' !in k && Trimmed(k) && Trimmed(m[k]) {
        var j := LastPairWith(Pairs(lines), k);
      }
      m
  }

  /** The configuration read from a file holds exactly the keys its lines
      contribute, each with the value of the last line contributing it. */
  lemma LoadConfigMeaning(lines: seq<string>)
    ensures var m := LoadConfig(Some(lines));
      forall k :: k in m <==> exists i :: 0 <= i < |lines| && ParseLine(lines[i]).Some? && ParseLine(lines[i]).value.0 == k
    ensures var m := LoadConfig(Some(lines));
      forall i :: 0 <= i < |lines| && ParseLine(lines[i]).Some? && LastWith(Pairs(lines), i) ==>
        ParseLine(lines[i]).value.0 in m && m[ParseLine(lines[i]).value.0] == ParseLine(lines[i]).value.1
  {
    var ps := Pairs(lines);
    CollectKeys(ps);
    forall i | 0 <= i < |lines| && ParseLine(lines[i]).Some? && LastWith(ps, i)
      ensures ParseLine(lines[i]).value.0 in Collect(ps) && Collect(ps)[ParseLine(lines[i]).value.0] == ParseLine(lines[i]).value.1
    {
      CollectLastWins(ps, i);
    }
  }

  /** A `key = value` line as written by hand (any whitespace around the
      key, the '=' and the value) reads back as exactly that pair, provided
      the key is trimmed, has no '=' and does not start with '#'. The value
      may itself contain '='. */
  lemma PairLineParses(w1: string, k: string, w2: string, w3: string, v: string, w4: string)
    requires AllSpace(w1) && AllSpace(w2) && AllSpace(w3) && AllSpace(w4)
    requires k != "" && v != "" && Trimmed(k) && Trimmed(v) && '=' !in k && k[0] != '#'
    ensures ParseLine(w1 + k + w2 + "=" + w3 + v + w4) == Some((k, v))
  {
    var inner := k + w2 + "=" + (w3 + v);
    PairLineStrip(w1, k, w2, w3, v, w4);
    PairLineCut(k, w2, w3, v);
    LineOfStripped(w1 + k + w2 + "=" + w3 + v + w4, inner, |k + w2|, k, v);
  }

  /** The stripped line is the pair with its inner blanks. */
  lemma PairLineStrip(w1: string, k: string, w2: string, w3: string, v: string, w4: string)
    requires AllSpace(w1) && AllSpace(w2) && AllSpace(w3) && AllSpace(w4)
    requires k != "" && v != "" && Trimmed(k) && Trimmed(v)
    ensures Strip(w1 + k + w2 + "=" + w3 + v + w4) == k + w2 + "=" + (w3 + v)
  {
    var inner := k + w2 + "=" + (w3 + v);
    assert w1 + k + w2 + "=" + w3 + v + w4 == w1 + inner + w4;
    assert inner[0] == k[0];
    assert inner[|inner| - 1] == v[|v| - 1];
    StripPadded(w1, inner, w4);
  }

  /** Cutting the stripped line at its first '=' gives back the key and value. */
  lemma PairLineCut(k: string, w2: string, w3: string, v: string)
    requires AllSpace(w2) && AllSpace(w3)
    requires k != "" && v != "" && Trimmed(k) && Trimmed(v) && '=' !in k
    ensures var s := k + w2 + "=" + (w3 + v);
      && FirstEquals(s) == |k + w2| < |s|
      && Strip(s[..|k + w2|]) == k
      && Strip(s[|k + w2| + 1..]) == v
  {
    var s := k + w2 + "=" + (w3 + v);
    EqualsAfterKey(k, w2, w3 + v);
    assert s[..|k + w2|] == "" + k + w2;
    assert s[|k + w2| + 1..] == w3 + v + "";
    StripPadded("", k, w2);
    StripPadded(w3, v, "");
  }

  /** A line whose stripped form cuts into a key and a value contributes them. */
  lemma LineOfStripped(line: string, s: string, i: nat, k: string, v: string)
    requires Strip(line) == s && i < |s| && FirstEquals(s) == i
    requires Strip(s[..i]) == k && Strip(s[i + 1..]) == v && k != "" && v != "" && k[0] != '#'
    ensures ParseLine(line) == Some((k, v))
  {
    KeyInsideLine(s, i, k);
  }

  /** The first '=' after a key and some blanks is the one that follows them. */
  lemma EqualsAfterKey(k: string, w: string, rest: string)
    requires '=' !in k && AllSpace(w)
    ensures FirstEquals(k + w + "=" + rest) == |k + w|
  {
    var s := k + w + "=" + rest;
    var a := k + w;
    forall j | 0 <= j < |a| ensures a[j] != '=' {
      if j >= |k| { assert a[j] == w[j - |k|] && IsSpace(w[j - |k|]); }
    }
    assert s[..|a|] == a && s[|a|] == '=';
  }

  /** Comment lines contribute nothing. */
  lemma CommentIgnored(w: string, text: string)
    requires AllSpace(w)
    ensures ParseLine(w + "#" + text) == None
  {
    assert w + "#" + text == w + ("#" + text);
    StripStart(w, "#" + text);
  }

  /** A line without '=' contributes nothing. */
  lemma NoEqualsIgnored(line: string)
    requires '=' !in line
    ensures ParseLine(line) == None
  {
    StripKeepsOut(line, '=');
  }

  /** Lines of the kinds a hand-written file has: a `key = value` pair, a
      comment, or a line without '='. */
  datatype SampleLine = KeyValue(key: string, value: string) | Comment(text: string) | NoEquals(text: string)

  predicate SampleOk(l: SampleLine) {
    match l
    case KeyValue(k, v) => k != "" && v != "" && Trimmed(k) && Trimmed(v) && '=' !in k && k[0] != '#'
    case Comment(_) => true
    case NoEquals(t) => '=' !in t
  }

  function Render(l: SampleLine): string {
    match l
    case KeyValue(k, v) => k + " = " + v
    case Comment(t) => "#" + t
    case NoEquals(t) => t
  }

  function Intended(l: SampleLine): Option<Pair> {
    if l.KeyValue? then Some((l.key, l.value)) else None
  }

  /** A file of such lines loads as the pairs it spells out, a later pair
      overwriting an earlier one with the same key: the dictionary built by
      assigning the pairs in order. */
  lemma SampleFileLoads(ls: seq<SampleLine>)
    requires forall i :: 0 <= i < |ls| ==> SampleOk(ls[i])
    ensures LoadConfig(Some(seq(|ls|, i requires 0 <= i < |ls| => Render(ls[i])))) ==
      Collect(seq(|ls|, i requires 0 <= i < |ls| => Intended(ls[i])))
  {
    var lines := seq(|ls|, i requires 0 <= i < |ls| => Render(ls[i]));
    var want := seq(|ls|, i requires 0 <= i < |ls| => Intended(ls[i]));
    forall i | 0 <= i < |ls| ensures Pairs(lines)[i] == want[i] {
      SampleLineParses(ls[i]);
    }
    assert Pairs(lines) == want;
  }

  lemma SampleLineParses(l: SampleLine)
    requires SampleOk(l)
    ensures ParseLine(Render(l)) == Intended(l)
  {
    match l
    case KeyValue(k, v) => KeyValueLineParses(k, v);
    case Comment(t) => CommentLineParses(t);
    case NoEquals(t) => NoEqualsIgnored(t);
  }

  lemma KeyValueLineParses(k: string, v: string)
    requires k != "" && v != "" && Trimmed(k) && Trimmed(v) && '=' !in k && k[0] != '#'
    ensures ParseLine(k + " = " + v) == Some((k, v))
  {
    var line := "" + k + " " + "=" + " " + v + "";
    assert line == k + " = " + v by {
      assert " = " == " " + "=" + " ";
    }
    assert AllSpace(" ") && AllSpace("");
    PairLineParses("", k, " ", " ", v, "");
  }

  lemma CommentLineParses(t: string)
    ensures ParseLine("#" + t) == None
  {
    CommentIgnored("", t);
    assert "" + "#" + t == "#" + t;
  }
}

=== FILE: filesystem.dfy ===
/** The filesystem the node reads, as an immutable tree: a directory lists
    its entries in the order `iterdir()` yields them, a regular file carries
    its bytes, whether the process may execute it (`os.access(X_OK)`) and
    whether it may open it for reading. Symbolic links are not part of this
    model. */
module FileSystem {
  import opened Wrappers
  import opened Text
  import opened Paths

  datatype Node =
    | File(content: Bytes, executable: bool, readable: bool)
    | Dir(entries: seq<Entry>)

  datatype Entry = Entry(name: string, node: Node)

  /** Index of the first entry called `name`. */
  function Find(es: seq<Entry>, name: string): (r: Option<nat>)
    ensures r.Some? ==> r.value < |es| && es[r.value].name == name
    ensures r.Some? ==> forall k :: 0 <= k < r.value ==> es[k].name != name
    ensures r.None? ==> forall k :: 0 <= k < |es| ==> es[k].name != name
  {
    if |es| == 0 then None
    else if es[0].name == name then Some(0)
    else
      match Find(es[1..], name)
      case None => None
      case Some(j) => Some(j + 1)
  }

  /** The node reached from `n` by following the segments of `rel`. */
  function LookupIn(n: Node, rel: Path): Option<Node>
    decreases rel
  {
    if rel == [] then Some(n)
    else
      match n
      case File(_, _, _) => None
      case Dir(es) =>
        match Find(es, rel[0])
        case None => None
        case Some(j) => LookupIn(es[j].node, rel[1..])
  }

  /** The node at an absolute path; `fs` is the directory "/". */
  function Lookup(fs: Node, p: Path): Option<Node> {
    LookupIn(fs, p)
  }

  /** `Path.is_file()`. */
  predicate IsFile(fs: Node, p: Path) {
    Lookup(fs, p).Some? && Lookup(fs, p).value.File?
  }

  /** The node the kernel reaches when it follows `segs` as written from
      the directory at the resolved path `at`: a name must be an entry of
      the directory reached so far, and ".." goes up to its parent (the
      root is its own parent). Following a segment out of anything but a
      directory fails, as the kernel's ENOENT and ENOTDIR do. This is how
      `exists()` and `iterdir()` see an unresolved path. */
  function Walk(fs: Node, at: Path, segs: Path): Option<Node>
    decreases |segs|
  {
    if segs == [] then Lookup(fs, at)
    else
      match Lookup(fs, at)
      case Some(Dir(_)) => Walk(fs, Step(at, segs[0]), segs[1..])
      case _ => None
  }

  /** `Path.exists()` of an absolute path as written. */
  predicate Exists(fs: Node, p: Path) {
    Walk(fs, [], p).Some?
  }

  /** What the kernel reaches is what the lexical resolution names. */
  lemma {:induction false} WalkLexical(fs: Node, at: Path, segs: Path)
    ensures Walk(fs, at, segs).Some? ==> Walk(fs, at, segs) == Lookup(fs, ResolveFrom(at, segs))
    decreases |segs|
  {
    if segs != [] && Lookup(fs, at).Some? && Lookup(fs, at).value.Dir? {
      WalkLexical(fs, Step(at, segs[0]), segs[1..]);
    }
  }

  /** Without "..", walking and looking up agree, missing paths included. */
  lemma {:induction false} WalkPlain(fs: Node, at: Path, segs: Path)
    requires Plain(segs)
    ensures Walk(fs, at, segs) == Lookup(fs, at + segs)
    decreases |segs|
  {
    if segs == [] {
      assert at + segs == at;
    } else {
      assert PlainSegment(segs[0]);
      LookupAppend(fs, at, segs);
      assert Plain(segs[1..]);
      if Lookup(fs, at).Some? && Lookup(fs, at).value.Dir? {
        WalkPlain(fs, at + [segs[0]], segs[1..]);
        assert (at + [segs[0]]) + segs[1..] == at + segs;
      }
    }
  }

  /** A ".." after a missing directory is not cancelled: the walk fails
      although the resolution is an existing directory. */
  lemma MissingThenUp(fs: Node, missing: string, name: string)
    requires fs.Dir? && Find(fs.entries, missing).None? && PlainSegment(missing)
    ensures Walk(fs, [], [missing, "..", name]).None?
    ensures ResolveFrom([], [missing, "..", name]) == ResolveFrom([], [name])
  {
    assert Walk(fs, [], [missing, "..", name]) == Walk(fs, [missing], ["..", name]);
  }

  /** Every directory names its entries distinctly with plain segments. */
  predicate WellFormed(n: Node)
    decreases n
  {
    match n
    case File(_, _, _) => true
    case Dir(es) =>
      && (forall i, j :: 0 <= i < j < |es| ==> es[i].name != es[j].name)
      && (forall i :: 0 <= i < |es| ==> PlainSegment(es[i].name))
      && (forall i :: 0 <= i < |es| ==> WellFormed(es[i].node))
  }

  /** In a well-formed directory, the entry found for a name is the only one with it. */
  lemma FindUnique(es: seq<Entry>, i: nat)
    requires WellFormed(Dir(es)) && i < |es|
    ensures Find(es, es[i].name) == Some(i)
  {
  }

  /** Following `a + b` is following `a`, then `b` from where `a` led. */
  lemma {:induction false} LookupAppend(n: Node, a: Path, b: Path)
    ensures LookupIn(n, a + b) ==
      (match LookupIn(n, a) case None => None case Some(m) => LookupIn(m, b))
    decreases a
  {
    if a == [] {
      assert a + b == b;
    } else {
      assert (a + b)[0] == a[0] && (a + b)[1..] == a[1..] + b;
      match n
      case File(_, _, _) =>
      case Dir(es) =>
        match Find(es, a[0])
        case None =>
        case Some(j) => LookupAppend(es[j].node, a[1..], b);
    }
  }

  /** Every node reachable in a well-formed tree is well formed. */
  lemma {:induction false} LookupWellFormed(n: Node, rel: Path)
    requires WellFormed(n) && LookupIn(n, rel).Some?
    ensures WellFormed(LookupIn(n, rel).value)
    decreases rel
  {
    if rel != [] {
      match n
      case Dir(es) =>
        var j := Find(es, rel[0]).value;
        LookupWellFormed(es[j].node, rel[1..]);
    }
  }
}

=== FILE: handlers.dfy ===
/** The request handlers of `handlers.py`: the fixed default index, the page
    handler (prefix strip, resolution, containment check, script decision,
    child environment) and the file handler. The process environment, the
    hex encoder and running a script are parameters (`Host`). */
module Handlers {
  import opened Wrappers
  import opened Text
  import opened Paths
  import opened FileSystem

  const DefaultIndex: string :=
    ">Default Home Page\n\nThis node is serving pages using rns-page-node, but index.mu was not found.\nPlease add an index.mu file to customize the home page.\n"

  const DefaultNotAllowed: string :=
    ">Request Not Allowed\n\nYou are not authorised to carry out the request.\n"

  const PagePrefix: string := "/page/"
  const FilePrefix: string := "/file/"

  /** `#!` as bytes. */
  const Shebang: Bytes := [35, 33]

  const Newline: byte := 10

  /** What a handler hands back to the transport: the fixed refusal (the
      UTF-8 bytes of `DefaultNotAllowed`), raw bytes, or an open stream
      (its bytes from offset 0) with the `name` metadata entry, the
      UTF-8 bytes of the file's name. */
  datatype Response =
    | NotAllowed
    | Content(data: Bytes)
    | Stream(data: Bytes, name: Bytes)

  function DefaultIndexBytes(): Bytes {
    Utf8(DefaultIndex)
  }

  /** A key of the request's data dictionary: a string or anything else. */
  datatype DataKey = StrKey(s: string) | OtherKey(id: int)

  /** A value of the request's data dictionary, forwarded untouched. */
  datatype DataValue = TextValue(s: string) | OpaqueValue(id: int)

  /** The request data: absent, a dictionary, or some other object. */
  datatype RequestData = NoData | Dict(fields: map<DataKey, DataValue>) | NotDict

  /** A child-process environment. */
  type Env = map<string, DataValue>

  /** What the handlers take from the running process: its environment,
      `RNS.hexrep(.., delimit=False)`, and running a script with no
      arguments (the captured stdout, or None when it could not be started
      or exited non-zero). */
  datatype Host = Host(
    environ: map<string, string>,
    hex: Bytes -> string,
    run: (Path, Env) -> Option<Bytes>)

  /** `serve_default_index`: the fixed page whatever the request. */
  function ServeDefaultIndex(path: string, data: RequestData, linkId: Option<Bytes>, remote: Option<Bytes>): (r: Response)
    ensures r.Content? && r.data == DefaultIndexBytes()
  {
    Content(DefaultIndexBytes())
  }

  /** The request path without its virtual prefix: six characters go when
      it starts with `prefix`, otherwise five (Python slicing past the end
      gives ""). */
  function RelativePart(path: string, prefix: string): (r: string)
    requires |prefix| == 6
    ensures |r| == (if StartsWith(path, prefix) then |path| - 6 else if |path| >= 5 then |path| - 5 else 0)
    ensures r == path[|path| - |r|..]
  {
    if StartsWith(path, prefix) then path[6..]
    else if |path| >= 5 then path[5..]
    else ""
  }

  /** A request made of the prefix and a relative part loses exactly the prefix. */
  lemma RelativeOfPrefixed(prefix: string, rel: string)
    requires |prefix| == 6
    ensures RelativePart(prefix + rel, prefix) == rel
  {
    assert (prefix + rel)[..6] == prefix;
    assert (prefix + rel)[6..] == rel;
  }

  /** The first line of a file as `readline()` returns it: up to and
      including the first newline, or everything. */
  function FirstLine(c: Bytes): (l: Bytes)
    ensures StartsWith(c, l)
    ensures |c| > 0 ==> |l| > 0
    ensures forall k :: 0 <= k < |l| - 1 ==> l[k] != Newline
    ensures |l| < |c| ==> |l| > 0 && l[|l| - 1] == Newline
  {
    if c == [] then []
    else if c[0] == Newline then [c[0]]
    else
      var l := [c[0]] + FirstLine(c[1..]);
      assert c[..|l|] == [c[0]] + c[1..][..|l| - 1];
      l
  }

  /** The page handler's script test: the first line starts with `#!`.
      Reading the first line first changes nothing, so a page is a script
      exactly when its content starts with `#!`. */
  predicate IsScript(c: Bytes)
    ensures IsScript(c) <==> StartsWith(c, Shebang)
  {
    FirstLineShebang(c);
    StartsWith(FirstLine(c), Shebang)
  }

  /** The first line starts with `#!` exactly when the content does. */
  lemma FirstLineShebang(c: Bytes)
    ensures StartsWith(FirstLine(c), Shebang) <==> StartsWith(c, Shebang)
  {
    if StartsWith(FirstLine(c), Shebang) {
      StartsWithTrans(c, FirstLine(c), Shebang);
    }
    if StartsWith(c, Shebang) {
      assert c[0] == 35 && c[1..][0] == 33;
      assert FirstLine(c) == [c[0]] + FirstLine(c[1..]);
      assert FirstLine(c[1..]) == [c[1..][0]] + FirstLine(c[1..][1..]);
    }
  }

  /** Data keys allowed into a script's environment. */
  predicate AllowedKey(k: string) {
    StartsWith(k, "field_") || StartsWith(k, "var_")
  }

  predicate Forwarded(data: RequestData, k: string) {
    data.Dict? && StrKey(k) in data.fields && AllowedKey(k)
  }

  /** The data entries copied into the environment. */
  function ForwardedFields(data: RequestData): (m: map<string, DataValue>)
    ensures forall k :: k in m <==> Forwarded(data, k)
    ensures forall k :: k in m ==> Forwarded(data, k) && m[k] == data.fields[StrKey(k)]
  {
    match data
    case Dict(f) =>
      var keys := set dk | dk in f.Keys && dk.StrKey? && AllowedKey(dk.s) :: dk.s;
      assert forall k :: Forwarded(data, k) ==> k in keys by {
        forall k | Forwarded(data, k) ensures k in keys {
          assert StrKey(k) in f.Keys && StrKey(k).s == k;
        }
      }
      map k | k in keys :: f[StrKey(k)]
    case _ => map[]
  }

  /** The child environment of a script page: the process environment,
      `link_id` and `remote_identity` (hex) when the request carries them,
      and exactly the data entries whose key is a string starting with
      `field_` or `var_`; no other data entry ever reaches it. */
  function ScriptEnv(host: Host, linkId: Option<Bytes>, remote: Option<Bytes>, data: RequestData): (env: Env)
    ensures forall k :: k in env <==>
      || k in host.environ
      || (k == "link_id" && linkId.Some?)
      || (k == "remote_identity" && remote.Some?)
      || Forwarded(data, k)
    ensures data.Dict? ==> forall k :: Forwarded(data, k) ==> env[k] == data.fields[StrKey(k)]
    ensures remote.Some? && !Forwarded(data, "remote_identity") ==>
      env["remote_identity"] == TextValue(host.hex(remote.value))
    ensures linkId.Some? && !Forwarded(data, "link_id") ==>
      env["link_id"] == TextValue(host.hex(linkId.value))
    ensures forall k :: k in host.environ && !Forwarded(data, k) && k != "link_id" && k != "remote_identity" ==>
      env[k] == TextValue(host.environ[k])
  {
    var ambient := map k | k in host.environ :: TextValue(host.environ[k]);
    var withLink := if linkId.Some? then ambient["link_id" := TextValue(host.hex(linkId.value))] else ambient;
    var withRemote := if remote.Some? then withLink["remote_identity" := TextValue(host.hex(remote.value))] else withLink;
    withRemote + ForwardedFields(data)
  }

  /** The resolved target of a request under the resolved root. */
  function Target(root: Path, path: string, prefix: string): Path
    requires Plain(root) && |prefix| == 6
  {
    Resolve(root, RelativePart(path, prefix))
  }

  /** The file at `p` exists, is a regular file and can be opened. */
  predicate ReadableFile(fs: Node, p: Path) {
    IsFile(fs, p) && Lookup(fs, p).value.readable
  }

  /** `serve_page`, with the pages root `pagesPath` as configured (resolved
      against the working directory `cwd`). */
  function ServePage(fs: Node, cwd: Path, pagesPath: string, path: string, data: RequestData,
                     linkId: Option<Bytes>, remote: Option<Bytes>, host: Host): (r: Response)
    requires Plain(cwd)
    ensures var root := Resolve(cwd, pagesPath);
            var target := Target(root, path, PagePrefix);
            && (r != NotAllowed <==> Admitted(root, target) && ReadableFile(fs, target))
            && !r.Stream?
            && (r.Content? ==> var f := Lookup(fs, target).value;
                  r.data == f.content ||
                  (IsScript(f.content) && f.executable && host.run(target, ScriptEnv(host, linkId, remote, data)) == Some(r.data)))
  {
    var root := Resolve(cwd, pagesPath);
    var target := Target(root, path, PagePrefix);
    if !Admitted(root, target) then NotAllowed
    else
      match Lookup(fs, target)
      case None => NotAllowed
      case Some(Dir(_)) => NotAllowed
      case Some(File(content, executable, readable)) =>
        if !readable then NotAllowed
        else if !IsScript(content) || !executable then Content(content)
        else
          match host.run(target, ScriptEnv(host, linkId, remote, data))
          case Some(out) => Content(out)
          case None => Content(content)
  }

  /** `serve_file`, with the files root `filesPath` as configured. */
  function ServeFile(fs: Node, cwd: Path, filesPath: string, path: string): (r: Response)
    requires Plain(cwd)
    ensures var root := Resolve(cwd, filesPath);
            var target := Target(root, path, FilePrefix);
            && (r != NotAllowed <==> Admitted(root, target) && ReadableFile(fs, target))
            && !r.Content?
            && (r.Stream? ==> r.name == Utf8(BaseName(target)) && r.data == Lookup(fs, target).value.content)
  {
    var root := Resolve(cwd, filesPath);
    var target := Target(root, path, FilePrefix);
    if !IsFile(fs, target) || !Admitted(root, target) then NotAllowed
    else
      var f := Lookup(fs, target).value;
      if !f.readable then NotAllowed
      else Stream(f.content, Utf8(BaseName(target)))
  }

  /** `PurePath.name`: the last segment, "" for "/". */
  function BaseName(p: Path): (name: string)
    ensures p == [] ==> name == ""
    ensures p != [] ==> p == p[..|p| - 1] + [name]
  {
    if p == [] then "" else p[|p| - 1]
  }

  /** The four cases of the page handler once the target is an admitted,
      readable file: only a page that starts with `#!` and is executable
      is run; its output is returned when the run succeeds, the raw content
      (shebang included) otherwise. */
  lemma ScriptDecision(fs: Node, cwd: Path, pagesPath: string, path: string, data: RequestData,
                       linkId: Option<Bytes>, remote: Option<Bytes>, host: Host)
    requires Plain(cwd)
    requires var root := Resolve(cwd, pagesPath);
             var target := Target(root, path, PagePrefix);
             Admitted(root, target) && ReadableFile(fs, target)
    ensures var root := Resolve(cwd, pagesPath);
            var target := Target(root, path, PagePrefix);
            var f := Lookup(fs, target).value;
            var r := ServePage(fs, cwd, pagesPath, path, data, linkId, remote, host);
            var out := host.run(target, ScriptEnv(host, linkId, remote, data));
            && (!StartsWith(f.content, Shebang) ==> r == Content(f.content))
            && (StartsWith(f.content, Shebang) && !f.executable ==> r == Content(f.content))
            && (StartsWith(f.content, Shebang) && f.executable && out.Some? ==> r == Content(out.value))
            && (StartsWith(f.content, Shebang) && f.executable && out.None? ==> r == Content(f.content))
  {
    var target := Target(Resolve(cwd, pagesPath), path, PagePrefix);
  }

  /** A refused or missing page never raises: its response is the fixed
      refusal, whose text says the request is not allowed. */
  lemma RefusalText(fs: Node, cwd: Path, pagesPath: string, path: string, data: RequestData,
                    linkId: Option<Bytes>, remote: Option<Bytes>, host: Host)
    requires Plain(cwd)
    requires !ReadableFile(fs, Target(Resolve(cwd, pagesPath), path, PagePrefix))
    ensures ServePage(fs, cwd, pagesPath, path, data, linkId, remote, host) == NotAllowed
  {
  }

  /** A request whose relative part is a '/'-joined list of kept segments
      targets the resolution of those segments below the root. */
  lemma TargetOfJoined(root: Path, prefix: string, segs: Path)
    requires |prefix| == 6 && Plain(root) && Parsed(segs) && |segs| >= 1
    ensures Target(root, prefix + JoinSlash(segs), prefix) == Canonical(root + segs)
  {
    var path := prefix + JoinSlash(segs);
    assert path[..6] == prefix;
    assert RelativePart(path, prefix) == JoinSlash(segs);
    JoinSplit(segs);
    JoinSlashHead(segs);
  }

  lemma {:induction false} JoinSlashHead(p: Path)
    requires |p| >= 1 && |p[0]| >= 1
    ensures |JoinSlash(p)| >= 1 && JoinSlash(p)[0] == p[0][0]
  {
  }

  /** A request whose target the containment check rejects is refused. */
  lemma OutsideRefused(fs: Node, cwd: Path, pagesPath: string, path: string, data: RequestData,
                       linkId: Option<Bytes>, remote: Option<Bytes>, host: Host, root: Path, t: Path)
    requires Plain(cwd) && root == Resolve(cwd, pagesPath) && t == Target(root, path, PagePrefix)
    requires !Admitted(root, t)
    ensures ServePage(fs, cwd, pagesPath, path, data, linkId, remote, host) == NotAllowed
  {
  }

  /** The traversal requests of the handler's property test are refused
      for a pages root such as /srv/node/pages: `..` escapes resolve above
      or beside the root. */
  lemma TraversalRefused(fs: Node, data: RequestData, linkId: Option<Bytes>, remote: Option<Bytes>, host: Host)
    ensures ServePage(fs, [], "/srv/node/pages", "/page/../../etc/passwd", data, linkId, remote, host) == NotAllowed
    ensures ServePage(fs, [], "/srv/node/pages", "/page/../main.py", data, linkId, remote, host) == NotAllowed
    ensures ServePage(fs, [], "/srv/node/pages", "/page/./index.mu/../../../", data, linkId, remote, host) == NotAllowed
  {
    var root := TestRoot();
    var t1 := EscapeTarget(root);
    EscapeOutside(root, t1);
    OutsideRefused(fs, [], "/srv/node/pages", "/page/../../etc/passwd", data, linkId, remote, host, root, t1);
    var t2 := SiblingTarget(root);
    SiblingOutside(root, t2);
    OutsideRefused(fs, [], "/srv/node/pages", "/page/../main.py", data, linkId, remote, host, root, t2);
    var t3 := AboveTarget(root);
    AboveOutside(root, t3);
    OutsideRefused(fs, [], "/srv/node/pages", "/page/./index.mu/../../../", data, linkId, remote, host, root, t3);
  }

  lemma EscapeOutside(root: Path, t: Path)
    requires root == ["srv", "node", "pages"] && t == ["srv", "etc", "passwd"]
    ensures !Admitted(root, t)
  {
    TestRootPlain();
    assert PlainSegment("etc") && PlainSegment("passwd");
    AdmittedMeaning(root, t);
    assert t[1] != root[1];
  }

  lemma SiblingOutside(root: Path, t: Path)
    requires root == ["srv", "node", "pages"] && t == ["srv", "node", "main.py"]
    ensures !Admitted(root, t)
  {
    TestRootPlain();
    assert PlainSegment("main.py");
    AdmittedMeaning(root, t);
    assert t[2][0] != root[2][0];
  }

  lemma AboveOutside(root: Path, t: Path)
    requires root == ["srv", "node", "pages"] && t == ["srv"]
    ensures !Admitted(root, t)
  {
    TestRootPlain();
    AboveIsRejected(root, t);
  }

  /** Reaching a target through its relative part and segments. */
  lemma TargetVia(root: Path, path: string, rel: string, segs: Path)
    requires Plain(root) && RelativePart(path, PagePrefix) == rel
    requires Split(rel) == segs && |rel| > 0 && rel[0] != '/'
    ensures Target(root, path, PagePrefix) == Canonical(root + segs)
  {
  }

  lemma TestRoot() returns (root: Path)
    ensures root == Resolve([], "/srv/node/pages") == ["srv", "node", "pages"]
  {
    root := TestRootSplit();
    TestRootPlain();
    CanonicalOfPlain(root);
  }

  lemma TestRootSplit() returns (root: Path)
    ensures root == Join([], "/srv/node/pages") == ["srv", "node", "pages"]
  {
    root := ["srv", "node", "pages"];
    TestRootSegments();
  }

  lemma TestRootSegments()
    ensures Split("/srv/node/pages") == ["srv", "node", "pages"]
  {
    TestRootText();
    SplitSlashed("/srv/node/pages", ["srv", "node", "pages"]);
  }

  lemma TestRootText()
    ensures "/srv/node/pages" == "/" + JoinSlash(["srv", "node", "pages"])
  {
    var root: Path := ["srv", "node", "pages"];
    assert JoinSlash(root[2..]) == "pages";
    assert JoinSlash(root[1..]) == "node/pages";
  }

  lemma TestRootPlain()
    ensures Plain(["srv", "node", "pages"])
  {
    assert PlainSegment("srv") && PlainSegment("node") && PlainSegment("pages");
  }

  lemma EscapeTarget(root: Path) returns (t: Path)
    requires root == ["srv", "node", "pages"] && Plain(root)
    ensures t == Target(root, "/page/../../etc/passwd", PagePrefix) == ["srv", "etc", "passwd"]
  {
    t := ["srv", "etc", "passwd"];
    EscapeVia(root);
    EscapeClimb(root);
  }

  lemma EscapeVia(root: Path)
    requires root == ["srv", "node", "pages"] && Plain(root)
    ensures Target(root, "/page/../../etc/passwd", PagePrefix) == Canonical(root + ["..", "..", "etc", "passwd"])
  {
    EscapeRel();
    EscapeSegments();
    TargetVia(root, "/page/../../etc/passwd", "../../etc/passwd", ["..", "..", "etc", "passwd"]);
  }

  lemma EscapeClimb(root: Path)
    requires root == ["srv", "node", "pages"] && Plain(root)
    ensures Canonical(root + ["..", "..", "etc", "passwd"]) == ["srv", "etc", "passwd"]
  {
    var segs: Path := ["..", "..", "etc", "passwd"];
    assert Canonical(root + segs) == ["srv", "etc", "passwd"] by {
      assert PlainSegment("etc") && PlainSegment("passwd");
      ClimbOut(root, 2, ["etc", "passwd"]);
      assert root + segs == root + Dots(2) + ["etc", "passwd"];
    }
  }

  lemma EscapeRel()
    ensures RelativePart("/page/../../etc/passwd", PagePrefix) == "../../etc/passwd"
  {
    assert "/page/../../etc/passwd" == PagePrefix + "../../etc/passwd";
    RelativeOfPrefixed(PagePrefix, "../../etc/passwd");
  }

  lemma EscapeSegments()
    ensures Split("../../etc/passwd") == ["..", "..", "etc", "passwd"]
  {
    EscapeText();
    SplitJoined("../../etc/passwd", ["..", "..", "etc", "passwd"]);
  }

  lemma EscapeText()
    ensures "../../etc/passwd" == JoinSlash(["..", "..", "etc", "passwd"])
  {
    var segs: Path := ["..", "..", "etc", "passwd"];
    assert JoinSlash(segs[3..]) == "passwd";
    assert JoinSlash(segs[2..]) == "etc/passwd";
    assert JoinSlash(segs[1..]) == "../etc/passwd";
  }

  lemma SiblingTarget(root: Path) returns (t: Path)
    requires root == ["srv", "node", "pages"] && Plain(root)
    ensures t == Target(root, "/page/../main.py", PagePrefix) == ["srv", "node", "main.py"]
  {
    t := ["srv", "node", "main.py"];
    SiblingVia(root);
    SiblingClimb(root);
  }

  lemma SiblingVia(root: Path)
    requires root == ["srv", "node", "pages"] && Plain(root)
    ensures Target(root, "/page/../main.py", PagePrefix) == Canonical(root + ["..", "main.py"])
  {
    SiblingRel();
    SiblingSegments();
    TargetVia(root, "/page/../main.py", "../main.py", ["..", "main.py"]);
  }

  lemma SiblingClimb(root: Path)
    requires root == ["srv", "node", "pages"] && Plain(root)
    ensures Canonical(root + ["..", "main.py"]) == ["srv", "node", "main.py"]
  {
    var segs: Path := ["..", "main.py"];
    assert Canonical(root + segs) == ["srv", "node", "main.py"] by {
      assert PlainSegment("main.py");
      ClimbOut(root, 1, ["main.py"]);
      assert root + segs == root + Dots(1) + ["main.py"];
    }
  }

  lemma SiblingRel()
    ensures RelativePart("/page/../main.py", PagePrefix) == "../main.py"
  {
    assert "/page/../main.py" == PagePrefix + "../main.py";
    RelativeOfPrefixed(PagePrefix, "../main.py");
  }

  lemma SiblingSegments()
    ensures Split("../main.py") == ["..", "main.py"]
  {
    SiblingText();
    SplitJoined("../main.py", ["..", "main.py"]);
  }

  lemma SiblingText()
    ensures "../main.py" == JoinSlash(["..", "main.py"])
  {
    var segs: Path := ["..", "main.py"];
    assert JoinSlash(segs[1..]) == "main.py";
  }

  lemma AboveTarget(root: Path) returns (t: Path)
    requires root == ["srv", "node", "pages"] && Plain(root)
    ensures t == Target(root, "/page/./index.mu/../../../", PagePrefix) == ["srv"]
  {
    t := ["srv"];
    AboveVia(root);
    AboveClimb(root);
  }

  lemma AboveVia(root: Path)
    requires root == ["srv", "node", "pages"] && Plain(root)
    ensures Target(root, "/page/./index.mu/../../../", PagePrefix) == Canonical(root + ["index.mu", "..", "..", ".."])
  {
    AboveRel();
    AboveSegments();
    TargetVia(root, "/page/./index.mu/../../../", "./index.mu/../../../", ["index.mu", "..", "..", ".."]);
  }

  lemma AboveClimb(root: Path)
    requires root == ["srv", "node", "pages"] && Plain(root)
    ensures Canonical(root + ["index.mu", "..", "..", ".."]) == ["srv"]
  {
    var segs: Path := ["index.mu", "..", "..", ".."];
    assert Canonical(root + segs) == ["srv"] by {
      assert PlainSegment("index.mu");
      ClimbOut(root + ["index.mu"], 3, []);
      assert root + segs == root + ["index.mu"] + Dots(3) + [];
    }
  }

  lemma AboveRel()
    ensures RelativePart("/page/./index.mu/../../../", PagePrefix) == "./index.mu/../../../"
  {
    assert "/page/./index.mu/../../../" == PagePrefix + "./index.mu/../../../";
    RelativeOfPrefixed(PagePrefix, "./index.mu/../../../");
  }

  lemma AboveSegments()
    ensures Split("./index.mu/../../../") == ["index.mu", "..", "..", ".."]
  {
    AboveText();
    SplitDotSlashed("./index.mu/../../../", ["index.mu", "..", "..", ".."]);
  }

  lemma AboveText()
    ensures "./index.mu/../../../" == "./" + (JoinSlash(["index.mu", "..", "..", ".."]) + "/")
  {
    var segs: Path := ["index.mu", "..", "..", ".."];
    assert JoinSlash(segs[3..]) == "..";
    assert JoinSlash(segs[2..]) == "../..";
    assert JoinSlash(segs[1..]) == "../../..";
  }
}

=== FILE: paths.dfy ===
/** Absolute POSIX paths as sequences of segments, as `pathlib` builds and
    resolves them: construction splits on '/' and drops empty and "."
    segments, `resolve()` folds ".." away (symbolic links are not part of
    this model), and `str()` joins the segments back with '/'. */
module Paths {
  import opened Text

  /** An absolute path: the segments below "/". */
  type Path = seq<string>

  /** A segment as it can name a directory entry. */
  predicate PlainSegment(s: string) {
    s != "" && s != "." && s != ".." && '/' !in s
  }

  predicate Plain(p: Path) {
    forall i :: 0 <= i < |p| ==> PlainSegment(p[i])
  }

  /** What `pathlib` keeps of a segment: no empty, "." or '/' segments
      (".." survives construction and is folded away by `resolve()`). */
  predicate Parsed(p: Path) {
    forall i :: 0 <= i < |p| ==> p[i] != "" && p[i] != "." && '/' !in p[i]
  }

  /** Index of the first '/' in `s`, or `|s|` when there is none. */
  function FirstSlash(s: string): (i: nat)
    ensures i <= |s|
    ensures '/' !in s[..i]
    ensures i < |s| ==> s[i] == '/'
  {
    if |s| == 0 || s[0] == '/' then 0
    else
      var i := 1 + FirstSlash(s[1..]);
      assert s[..i] == [s[0]] + s[1..][..i - 1];
      i
  }

  /** The segments `pathlib` makes of a path string. */
  function Split(s: string): (p: Path)
    ensures Parsed(p)
    ensures |p| <= |s|
    decreases |s|
  {
    if s == [] then []
    else
      var i := FirstSlash(s);
      var seg := s[..i];
      var rest := if i < |s| then Split(s[i + 1..]) else [];
      (if seg == "" || seg == "." then [] else [seg]) + rest
  }

  /** `PurePath.as_posix()` of a relative path: segments joined by '/',
      and "." for the empty path. */
  function PosixJoin(p: Path): (s: string)
    ensures p != [] && p[0] != "" ==> s != [] && s[0] == p[0][0]
  {
    if p == [] then "." else JoinSlash(p)
  }

  function JoinSlash(p: Path): string
    requires |p| >= 1
  {
    if |p| == 1 then p[0] else p[0] + "/" + JoinSlash(p[1..])
  }

  lemma FirstSlashOfJoin(a: string, rest: string)
    requires '/' !in a
    ensures FirstSlash(a + "/" + rest) == |a|
    ensures FirstSlash(a) == |a|
  {
    var s := a + "/" + rest;
    assert s[..|a|] == a && s[|a|] == '/';
  }

  /** The first segment is cut at the first '/'; the rest splits on its own. */
  lemma SplitAt(a: string, rest: string)
    requires '/' !in a
    ensures Split(a + "/" + rest) == (if a == "" || a == "." then [] else [a]) + Split(rest)
  {
    var s := a + "/" + rest;
    FirstSlashOfJoin(a, rest);
    assert s[..|a|] == a;
    assert s[|a| + 1..] == rest;
  }

  /** A string without '/' is a single segment. */
  lemma SplitOne(a: string)
    requires '/' !in a && a != "" && a != "."
    ensures Split(a) == [a]
  {
    FirstSlashOfJoin(a, "");
    assert a[..|a|] == a;
  }

  /** Splitting undoes `as_posix()` for a path of plain segments. */
  lemma SplitJoin(p: Path)
    requires Plain(p)
    ensures Split(PosixJoin(p)) == p
  {
    if p == [] {
      assert Split(".") == [];
    } else {
      JoinSplit(p);
    }
  }

  /** Splitting undoes joining with '/' for any segments `pathlib` keeps. */
  lemma {:induction false} JoinSplit(p: Path)
    requires Parsed(p) && |p| >= 1
    ensures Split(JoinSlash(p)) == p
  {
    if |p| == 1 {
      SplitOne(p[0]);
    } else {
      SplitAt(p[0], JoinSlash(p[1..]));
      JoinSplit(p[1..]);
      assert p == [p[0]] + p[1..];
    }
  }

  /** Leading "/" and "./" add no segment. */
  lemma SplitSkipsLead(lead: string, s: string)
    requires lead == "/" || lead == "./"
    ensures Split(lead + s) == Split(s)
  {
    var a := lead[..|lead| - 1];
    assert a + "/" + s == lead + s;
    SplitAt(a, s);
  }

  /** An absolute path written out splits back into its segments. */
  lemma SplitSlashed(s: string, p: Path)
    requires Parsed(p) && |p| >= 1
    requires s == "/" + JoinSlash(p)
    ensures Split(s) == p
  {
    SplitSkipsLead("/", JoinSlash(p));
    JoinSplit(p);
  }

  /** A relative path written out splits back into its segments. */
  lemma SplitJoined(s: string, p: Path)
    requires Parsed(p) && |p| >= 1
    requires s == JoinSlash(p)
    ensures Split(s) == p
  {
    JoinSplit(p);
  }

  /** A path written as "./" followed by its segments and a trailing '/'
      splits back into those segments. */
  lemma SplitDotSlashed(s: string, p: Path)
    requires Parsed(p) && |p| >= 1
    requires s == "./" + (JoinSlash(p) + "/")
    ensures Split(s) == p
  {
    SplitSkipsLead("./", JoinSlash(p) + "/");
    SplitTrailingSlash(p);
  }

  /** A trailing '/' adds no segment. */
  lemma {:induction false} SplitTrailingSlash(p: Path)
    requires Parsed(p) && |p| >= 1
    ensures Split(JoinSlash(p) + "/") == p
  {
    if |p| == 1 {
      assert JoinSlash(p) + "/" == p[0] + "/" + "";
      SplitAt(p[0], "");
    } else {
      var q := p[1..];
      assert Split(JoinSlash(p) + "/") == [p[0]] + Split(JoinSlash(q) + "/") by {
        SlashAssoc(p[0], JoinSlash(q));
        SplitAt(p[0], JoinSlash(q) + "/");
      }
      SplitTrailingSlash(q);
      assert p == [p[0]] + q;
    }
  }

  lemma SlashAssoc(a: string, b: string)
    ensures (a + "/" + b) + "/" == a + "/" + (b + "/")
  {
  }

  /** One step of `resolve()`: ".." climbs (never above "/"), anything else
      `pathlib` kept is appended. */
  function Step(acc: Path, seg: string): Path {
    if seg == ".." then (if |acc| > 0 then acc[..|acc| - 1] else acc)
    else if seg == "" || seg == "." then acc
    else acc + [seg]
  }

  /** Folds `segs` onto the already resolved `acc`. */
  function ResolveFrom(acc: Path, segs: Path): Path
    decreases |segs|
  {
    if segs == [] then acc else ResolveFrom(Step(acc, segs[0]), segs[1..])
  }

  /** `Path.resolve()` of an absolute path without symbolic links. */
  function Canonical(segs: Path): (p: Path)
    ensures |p| <= |segs|
  {
    CanonicalBound([], segs);
    ResolveFrom([], segs)
  }

  /** A resolved path has no "", "." or ".." segment left, provided the
      segments it came from contain no '/'. */
  predicate Resolved(p: Path) {
    forall i :: 0 <= i < |p| ==> p[i] != "" && p[i] != "." && p[i] != ".."
  }

  lemma {:induction false} CanonicalBound(acc: Path, segs: Path)
    ensures |ResolveFrom(acc, segs)| <= |acc| + |segs|
    decreases |segs|
  {
    if segs != [] { CanonicalBound(Step(acc, segs[0]), segs[1..]); }
  }

  lemma {:induction false} ResolveFromResolved(acc: Path, segs: Path)
    requires Resolved(acc)
    ensures Resolved(ResolveFrom(acc, segs))
    decreases |segs|
  {
    if segs != [] { ResolveFromResolved(Step(acc, segs[0]), segs[1..]); }
  }

  lemma {:induction false} ResolveFromPlain(acc: Path, segs: Path)
    requires Plain(acc) && Parsed(segs)
    ensures Plain(ResolveFrom(acc, segs))
    decreases |segs|
  {
    if segs != [] { ResolveFromPlain(Step(acc, segs[0]), segs[1..]); }
  }

  /** Resolving a path split in two resolves the second half onto the
      resolution of the first. */
  lemma {:induction false} ResolveFromAppend(acc: Path, a: Path, b: Path)
    ensures ResolveFrom(acc, a + b) == ResolveFrom(ResolveFrom(acc, a), b)
    decreases |a|
  {
    if a == [] {
      assert a + b == b;
    } else {
      assert (a + b)[0] == a[0] && (a + b)[1..] == a[1..] + b;
      ResolveFromAppend(Step(acc, a[0]), a[1..], b);
    }
  }

  /** Plain segments are appended unchanged. */
  lemma {:induction false} ResolveFromPlainSuffix(acc: Path, rel: Path)
    requires Plain(rel)
    ensures ResolveFrom(acc, rel) == acc + rel
    decreases |rel|
  {
    if rel == [] {
      assert acc + rel == acc;
    } else {
      ResolveFromPlainSuffix(acc + [rel[0]], rel[1..]);
      assert acc + [rel[0]] + rel[1..] == acc + rel;
    }
  }

  /** `resolve()` of a directory entry below `base` is the resolved base
      followed by the entry's plain segments. */
  lemma CanonicalAppendPlain(base: Path, rel: Path)
    requires Plain(rel)
    ensures Canonical(base + rel) == Canonical(base) + rel
  {
    ResolveFromAppend([], base, rel);
    ResolveFromPlainSuffix(ResolveFrom([], base), rel);
  }

  /** A path of plain segments is already resolved. */
  lemma CanonicalOfPlain(p: Path)
    requires Plain(p)
    ensures Canonical(p) == p
  {
    ResolveFromPlainSuffix([], p);
    assert [] + p == p;
  }

  /** `k` parent-directory segments. */
  function Dots(k: nat): (d: Path)
    ensures |d| == k && forall i :: 0 <= i < k ==> d[i] == ".."
  {
    if k == 0 then [] else [".."] + Dots(k - 1)
  }

  /** Each ".." drops one segment, and climbing stops at "/". */
  lemma {:induction false} ResolveFromDots(acc: Path, k: nat)
    ensures ResolveFrom(acc, Dots(k)) == acc[..if k <= |acc| then |acc| - k else 0]
  {
    if k > 0 {
      var up := if |acc| > 0 then acc[..|acc| - 1] else acc;
      assert Dots(k)[0] == ".." && Dots(k)[1..] == Dots(k - 1);
      ResolveFromDots(up, k - 1);
    }
  }

  /** A run of ".." after a plain path climbs that many levels, and plain
      segments after it are appended. */
  lemma ClimbOut(base: Path, k: nat, rest: Path)
    requires Plain(base) && Plain(rest)
    ensures Canonical(base + Dots(k) + rest) == base[..if k <= |base| then |base| - k else 0] + rest
  {
    ResolveFromAppend([], base + Dots(k), rest);
    ResolveFromAppend([], base, Dots(k));
    CanonicalOfPlain(base);
    ResolveFromDots(base, k);
    ResolveFromPlainSuffix(base[..if k <= |base| then |base| - k else 0], rest);
  }

  /** `base / s` before resolution: an absolute `s` replaces `base`
      altogether, a relative one is appended to it. */
  function Join(base: Path, s: string): (p: Path)
    requires Plain(base)
    ensures Parsed(p)
  {
    if |s| > 0 && s[0] == '/' then Split(s) else base + Split(s)
  }

  /** `(base / s).resolve()` where `base` is already resolved. */
  function Resolve(base: Path, s: string): (p: Path)
    requires Plain(base)
    ensures Plain(p)
  {
    var segs := Join(base, s);
    ResolveFromPlain([], segs);
    Canonical(segs)
  }

  /** `str(path)` of an absolute path. */
  function PathString(p: Path): (s: string)
    ensures |s| > 0 && s[0] == '/'
  {
    if p == [] then "/" else Rooted(p)
  }

  /** "/a/b/c" for ["a", "b", "c"]. */
  function Rooted(p: Path): (s: string)
    ensures p != [] ==> |s| > 0 && s[0] == '/'
    ensures p == [] ==> s == ""
  {
    if p == [] then "" else "/" + p[0] + Rooted(p[1..])
  }

  /** `p` lies at or below `root`, segment by segment. The handlers' string
      check is weaker (see `SiblingIsAdmitted`). */
  predicate Below(p: Path, root: Path) {
    |root| <= |p| && p[..|root|] == root
  }

  /** The containment check as the handlers write it: the string form of
      the resolved path starts with the string form of the resolved root,
      with no separator check after the root. */
  predicate Admitted(root: Path, p: Path) {
    StartsWith(PathString(p), PathString(root))
  }

  /** `a + x` extends `b + y` where a, b hold no '/' and x, y are empty or
      start with '/': `a` is a prefix of `b`, and when `x` is not empty
      the two agree up to their first '/'. */
  lemma CutAtSlash(a: string, x: string, b: string, y: string)
    requires '/' !in a && '/' !in b
    requires x == [] || x[0] == '/'
    requires y == [] || y[0] == '/'
    requires StartsWith(b + y, a + x)
    ensures StartsWith(b, a)
    ensures x != [] ==> a == b && StartsWith(y, x)
  {
    var s := b + y;
    var t := a + x;
    assert forall i :: 0 <= i < |t| ==> s[i] == t[i];
    assert |b| < |s| ==> s[|b|] == '/';
    assert |a| <= |b|;
    assert b[..|a|] == s[..|a|] == a;
    if x != [] {
      assert s[|a|] == t[|a|] == '/';
      assert |a| == |b|;
      assert y[..|x|] == s[|b|..][..|x|] == t[|a|..] == x;
    }
  }

  /** A common prefix does not change whether one string starts with another. */
  lemma StartsWithCommon(a: string, s: string, t: string)
    ensures StartsWith(a + s, a + t) <==> StartsWith(s, t)
  {
    if StartsWith(a + s, a + t) {
      assert s[..|t|] == (a + s)[..|a + t|][|a|..];
    }
    if StartsWith(s, t) {
      assert (a + s)[..|a + t|] == a + s[..|t|];
    }
  }

  /** What the string check on non-empty paths of plain segments amounts to:
      all segments of the root but the last are the path's, and the root's
      last segment is a string prefix of the path's segment at that depth. */
  lemma {:induction false} RootedPrefix(root: Path, p: Path)
    requires Plain(root) && Plain(p) && |root| >= 1 && |p| >= 1
    ensures StartsWith(Rooted(p), Rooted(root)) <==>
      (|root| <= |p| && p[..|root| - 1] == root[..|root| - 1] && StartsWith(p[|root| - 1], root[|root| - 1]))
    decreases |root|
  {
    assert StartsWith(Rooted(p), Rooted(root)) <==>
      StartsWith(p[0] + Rooted(p[1..]), root[0] + Rooted(root[1..])) by {
      assert Rooted(root) == "/" + (root[0] + Rooted(root[1..]));
      assert Rooted(p) == "/" + (p[0] + Rooted(p[1..]));
      StartsWithCommon("/", p[0] + Rooted(p[1..]), root[0] + Rooted(root[1..]));
    }
    if |root| == 1 {
      RootedPrefixLast(root, p);
    } else if |p| >= 2 && p[0] == root[0] {
      RootedPrefix(root[1..], p[1..]);
      RootedPrefixStep(root, p);
    } else {
      RootedPrefixDiffer(root, p);
    }
  }

  /** `RootedPrefix` for a root of one segment. */
  lemma RootedPrefixLast(root: Path, p: Path)
    requires Plain(root) && Plain(p) && |root| == 1 && |p| >= 1
    ensures StartsWith(p[0] + Rooted(p[1..]), root[0] + Rooted(root[1..])) <==> StartsWith(p[0], root[0])
  {
    var r0, p0, pr := root[0], p[0], Rooted(p[1..]);
    assert Rooted(root[1..]) == "";
    assert r0 + Rooted(root[1..]) == r0;
    assert Plain(p[1..]);
    if StartsWith(p0 + pr, r0) {
      assert r0 + "" == r0;
      CutAtSlash(r0, "", p0, pr);
    }
    if StartsWith(p0, r0) {
      assert (p0 + pr)[..|r0|] == p0[..|r0|];
    }
  }

  /** `RootedPrefix` one segment down, when the first segments agree. */
  lemma RootedPrefixStep(root: Path, p: Path)
    requires Plain(root) && Plain(p) && |root| >= 2 && |p| >= 2 && p[0] == root[0]
    requires StartsWith(Rooted(p[1..]), Rooted(root[1..])) <==>
      (|root| - 1 <= |p| - 1 && p[1..][..|root| - 2] == root[1..][..|root| - 2]
       && StartsWith(p[1..][|root| - 2], root[1..][|root| - 2]))
    ensures StartsWith(p[0] + Rooted(p[1..]), root[0] + Rooted(root[1..])) <==>
      (|root| <= |p| && p[..|root| - 1] == root[..|root| - 1] && StartsWith(p[|root| - 1], root[|root| - 1]))
  {
    StartsWithCommon(p[0], Rooted(p[1..]), Rooted(root[1..]));
    if |root| <= |p| {
      assert p[..|root| - 1] == [p[0]] + p[1..][..|root| - 2];
      assert root[..|root| - 1] == [root[0]] + root[1..][..|root| - 2];
    }
  }

  /** `RootedPrefix` when the path is too short or the first segments differ. */
  lemma RootedPrefixDiffer(root: Path, p: Path)
    requires Plain(root) && Plain(p) && |root| >= 2 && |p| >= 1
    requires |p| == 1 || p[0] != root[0]
    ensures !StartsWith(p[0] + Rooted(p[1..]), root[0] + Rooted(root[1..]))
  {
    var rr, pr := Rooted(root[1..]), Rooted(p[1..]);
    assert Plain(root[1..]) && Plain(p[1..]);
    if StartsWith(p[0] + pr, root[0] + rr) {
      CutAtSlash(root[0], rr, p[0], pr);
    }
  }

  /** The handlers' check, characterised: every resolved path is admitted
      below the root "/"; otherwise a path is admitted exactly when it
      agrees with the root on every segment but the root's last, which
      need only be a string prefix of the path's segment at that depth. */
  lemma AdmittedMeaning(root: Path, p: Path)
    requires Plain(root) && Plain(p)
    ensures Admitted(root, p) <==>
      (root == [] ||
       (|root| <= |p| && p[..|root| - 1] == root[..|root| - 1] && StartsWith(p[|root| - 1], root[|root| - 1])))
  {
    if root != [] {
      if p == [] {
        assert |PathString(root)| >= 2 by { assert root[0] != ""; }
      } else {
        RootedPrefix(root, p);
      }
    }
  }

  /** Everything at or below the root is admitted. */
  lemma BelowIsAdmitted(root: Path, p: Path)
    requires Plain(root) && Plain(p) && Below(p, root)
    ensures Admitted(root, p)
  {
    AdmittedMeaning(root, p);
    if root != [] {
      assert p[..|root| - 1] == p[..|root|][..|root| - 1];
      assert p[|root| - 1] == p[..|root|][|root| - 1];
    }
  }

  /** A path strictly above the root (what ".." escapes resolve to) is
      never admitted. */
  lemma AboveIsRejected(root: Path, p: Path)
    requires Plain(root) && Plain(p)
    requires |p| < |root| && root[..|p|] == p
    ensures !Admitted(root, p)
  {
    AdmittedMeaning(root, p);
  }

  /** The check is weaker than containment: with root "/srv/pages" the
      sibling "/srv/pages2/x" is admitted although it lies outside. */
  lemma SiblingIsAdmitted()
    ensures Admitted(["srv", "pages"], ["srv", "pages2", "x"])
    ensures !Below(["srv", "pages2", "x"], ["srv", "pages"])
  {
    var root: Path := ["srv", "pages"];
    var p: Path := ["srv", "pages2", "x"];
    assert Plain(root) && Plain(p);
    AdmittedMeaning(root, p);
    assert p[..1] == root[..1];
    assert StartsWith(p[1], root[1]) by { assert "pages2"[..5] == "pages"; }
    assert p[..2][1] == "pages2" != "pages";
  }
}

=== FILE: registry.dfy ===
/** Registration of `core.py`: the node's view of its content (the served
    lists and the handler table of its destination) and the two operations
    that rescan the roots and bind virtual paths. The table stands for the
    request handlers of the transport's destination, keyed by virtual path;
    a binding is added or overwritten, never removed. */
module Registry {
  import opened Wrappers
  import opened Text
  import opened Paths
  import opened FileSystem
  import opened Scanner
  import opened Handlers

  /** Which responder a virtual path is bound to. */
  datatype Handler = DefaultIndexHandler | PageHandler | FileHandler

  type Table = map<string, Handler>

  /** The part of a page node that registration reads and writes. The
      roots are kept as configured; `cwd` is the working directory they are
      resolved against. */
  datatype NodeState = NodeState(
    cwd: Path,
    pagesPath: string,
    filesPath: string,
    servedPages: seq<Path>,
    servedFiles: seq<Path>,
    table: Table)

  predicate Valid(st: NodeState) {
    Plain(st.cwd)
  }

  const IndexName: string := "index.mu"

  /** The virtual path of the default home page. */
  const IndexRequest: string := "/page/index.mu"

  /** `PurePath.relative_to`: the segments of `p` below `root`, or None
      when `p` is not below it (`ValueError`). */
  function RelativeTo(p: Path, root: Path): (r: Option<Path>)
    ensures r.Some? <==> Below(p, root)
    ensures r.Some? ==> root + r.value == p
  {
    if |root| <= |p| && p[..|root|] == root then Some(p[|root|..]) else None
  }

  /** The request path a scanned path is registered under, if any: the
      prefix followed by the POSIX form of its place below the root. */
  function VirtualPath(p: Path, root: Path, prefix: string): (r: Option<string>)
    ensures r.Some? <==> Below(Canonical(p), root)
    ensures r.Some? ==> StartsWith(r.value, prefix)
  {
    match RelativeTo(Canonical(p), root)
    case None => None
    case Some(rel) =>
      var v := prefix + PosixJoin(rel);
      assert v[..|prefix|] == prefix;
      Some(v)
  }

  /** The request paths registering `paths` binds. */
  function BoundPaths(paths: seq<Path>, root: Path, prefix: string): set<string> {
    set p | p in paths && VirtualPath(p, root, prefix).Some? :: VirtualPath(p, root, prefix).value
  }

  /** Registering each path in turn: the paths that map to a virtual path
      are bound to `h`, every other binding is kept. */
  function Bind(table: Table, paths: seq<Path>, root: Path, prefix: string, h: Handler): (r: Table)
    ensures r.Keys == table.Keys + BoundPaths(paths, root, prefix)
    ensures forall v :: v in BoundPaths(paths, root, prefix) ==> r[v] == h
    ensures forall v :: v in table && v !in BoundPaths(paths, root, prefix) ==> r[v] == table[v]
    decreases |paths|
  {
    if paths == [] then table
    else
      var next := match VirtualPath(paths[0], root, prefix)
        case None => table
        case Some(v) => table[v := h];
      var r := Bind(next, paths[1..], root, prefix, h);
      assert forall q :: q in paths <==> q == paths[0] || q in paths[1..];
      assert BoundPaths(paths, root, prefix) ==
        BoundPaths([paths[0]], root, prefix) + BoundPaths(paths[1..], root, prefix);
      r
  }

  /** `register_pages`: rescan the pages root, replace the served list,
      bind the default home page when the root holds no regular `index.mu`,
      then bind every scanned page. None when the scan raises (the root is
      a regular file). */
  function RegisterPages(st: NodeState, fs: Node): (r: Option<NodeState>)
    requires Valid(st)
    ensures r.Some? <==> Scan(fs, Join(st.cwd, st.pagesPath), Pages).Some?
    ensures r.Some? ==>
      && r.value.servedPages == Scan(fs, Join(st.cwd, st.pagesPath), Pages).value
      && r.value == st.(servedPages := r.value.servedPages, table := r.value.table)
  {
    match Scan(fs, Join(st.cwd, st.pagesPath), Pages)
    case None => None
    case Some(pages) =>
      var root := Resolve(st.cwd, st.pagesPath);
      var withIndex :=
        if !IsFile(fs, root + [IndexName]) then st.table[IndexRequest := DefaultIndexHandler]
        else st.table;
      Some(st.(servedPages := pages, table := Bind(withIndex, pages, root, PagePrefix, PageHandler)))
  }

  /** `register_files`: rescan the files root, replace the served list and
      bind every scanned file. */
  function RegisterFiles(st: NodeState, fs: Node): (r: Option<NodeState>)
    requires Valid(st)
    ensures r.Some? <==> Scan(fs, Join(st.cwd, st.filesPath), AllFiles).Some?
    ensures r.Some? ==>
      && r.value.servedFiles == Scan(fs, Join(st.cwd, st.filesPath), AllFiles).value
      && r.value == st.(servedFiles := r.value.servedFiles, table := r.value.table)
  {
    match Scan(fs, Join(st.cwd, st.filesPath), AllFiles)
    case None => None
    case Some(files) =>
      var root := Resolve(st.cwd, st.filesPath);
      Some(st.(servedFiles := files, table := Bind(st.table, files, root, FilePrefix, FileHandler)))
  }

  /** A node as the constructor leaves it: both roots registered, in that
      order, starting from an empty table. */
  function Init(cwd: Path, pagesPath: string, filesPath: string, fs: Node): (r: Option<NodeState>)
    requires Plain(cwd)
    ensures r.Some? <==>
      Scan(fs, Join(cwd, pagesPath), Pages).Some? && Scan(fs, Join(cwd, filesPath), AllFiles).Some?
    ensures r.Some? ==>
      && Valid(r.value) && r.value.cwd == cwd
      && r.value.pagesPath == pagesPath && r.value.filesPath == filesPath
      && r.value.servedPages == Scan(fs, Join(cwd, pagesPath), Pages).value
      && r.value.servedFiles == Scan(fs, Join(cwd, filesPath), AllFiles).value
  {
    var st := NodeState(cwd, pagesPath, filesPath, [], [], map[]);
    match RegisterPages(st, fs)
    case None => None
    case Some(st1) => RegisterFiles(st1, fs)
  }

  /** What the destination does with a request: no handler for an unbound
      path (None), otherwise the bound responder's answer against the
      filesystem as it is now. */
  function Dispatch(st: NodeState, fs: Node, path: string, data: RequestData,
                    linkId: Option<Bytes>, remote: Option<Bytes>, host: Host): (r: Option<Response>)
    requires Valid(st)
    ensures r.Some? <==> path in st.table
    ensures r.Some? && st.table[path] == DefaultIndexHandler ==> r.value == Content(DefaultIndexBytes())
    ensures r.Some? && st.table[path] == PageHandler ==> !r.value.Stream?
    ensures r.Some? && st.table[path] == FileHandler ==> !r.value.Content?
  {
    if path !in st.table then None
    else
      match st.table[path]
      case DefaultIndexHandler => Some(ServeDefaultIndex(path, data, linkId, remote))
      case PageHandler => Some(ServePage(fs, st.cwd, st.pagesPath, path, data, linkId, remote, host))
      case FileHandler => Some(ServeFile(fs, st.cwd, st.filesPath, path))
  }

  /** Where a scanned path is registered: under the prefix, at the POSIX
      form of its segments below the scan base. Registration never skips a
      scanned path (the `ValueError` branch cannot be taken without
      symbolic links). */
  lemma ScannedVirtualPath(fs: Node, cwd: Path, rootPath: string, mode: Mode, prefix: string, x: Path)
    requires Plain(cwd) && WellFormed(fs)
    requires Scan(fs, Join(cwd, rootPath), mode).Some? && x in Scan(fs, Join(cwd, rootPath), mode).value
    ensures |x| > |Join(cwd, rootPath)|
    ensures VirtualPath(x, Resolve(cwd, rootPath), prefix) == Some(prefix + PosixJoin(x[|Join(cwd, rootPath)|..]))
  {
    var base := Join(cwd, rootPath);
    ScannedRelIsPlain(fs, base, mode, x);
    var rel := x[|base|..];
    assert x == base + rel;
    CanonicalAppendPlain(base, rel);
  }

  /** The request path a scanned path ends up under. */
  function ServedRequest(cwd: Path, rootPath: string, prefix: string, x: Path): string
    requires Plain(cwd)
  {
    var base := Join(cwd, rootPath);
    prefix + PosixJoin(if |base| <= |x| then x[|base|..] else [])
  }

  /** After `register_pages` every served page is bound to the page
      responder, under the request path of its place below the root. */
  lemma PagesBound(st: NodeState, fs: Node)
    requires Valid(st) && WellFormed(fs) && RegisterPages(st, fs).Some?
    ensures var st' := RegisterPages(st, fs).value;
      forall x :: x in st'.servedPages ==>
        var v := ServedRequest(st.cwd, st.pagesPath, PagePrefix, x);
        v in st'.table && st'.table[v] == PageHandler
  {
    var st' := RegisterPages(st, fs).value;
    var root := Resolve(st.cwd, st.pagesPath);
    forall x | x in st'.servedPages
      ensures var v := ServedRequest(st.cwd, st.pagesPath, PagePrefix, x);
        v in st'.table && st'.table[v] == PageHandler
    {
      ScannedVirtualPath(fs, st.cwd, st.pagesPath, Pages, PagePrefix, x);
      assert ServedRequest(st.cwd, st.pagesPath, PagePrefix, x) in BoundPaths(st'.servedPages, root, PagePrefix);
    }
  }

  /** After `register_files` every served file is bound to the file
      responder, under the request path of its place below the root. */
  lemma FilesBound(st: NodeState, fs: Node)
    requires Valid(st) && WellFormed(fs) && RegisterFiles(st, fs).Some?
    ensures var st' := RegisterFiles(st, fs).value;
      forall x :: x in st'.servedFiles ==>
        var v := ServedRequest(st.cwd, st.filesPath, FilePrefix, x);
        v in st'.table && st'.table[v] == FileHandler
  {
    var st' := RegisterFiles(st, fs).value;
    var root := Resolve(st.cwd, st.filesPath);
    forall x | x in st'.servedFiles
      ensures var v := ServedRequest(st.cwd, st.filesPath, FilePrefix, x);
        v in st'.table && st'.table[v] == FileHandler
    {
      ScannedVirtualPath(fs, st.cwd, st.filesPath, AllFiles, FilePrefix, x);
      assert ServedRequest(st.cwd, st.filesPath, FilePrefix, x) in BoundPaths(st'.servedFiles, root, FilePrefix);
    }
  }

  /** The table `register_pages` leaves: the old bindings, every scanned
      page bound to the page responder under its request path, and the
      default home page when the root holds no regular `index.mu` (a
      scanned `index.mu` takes precedence, as it is bound last). */
  lemma PagesTable(st: NodeState, fs: Node)
    requires Valid(st) && RegisterPages(st, fs).Some?
    ensures var r := RegisterPages(st, fs).value;
      var root := Resolve(st.cwd, st.pagesPath);
      var bound := BoundPaths(r.servedPages, root, PagePrefix);
      var noIndex := !IsFile(fs, root + [IndexName]);
      var t := r.table;
      && t.Keys == st.table.Keys + bound + (if noIndex then {IndexRequest} else {})
      && (forall v :: v in bound ==> t[v] == PageHandler)
      && (noIndex && IndexRequest !in bound ==> t[IndexRequest] == DefaultIndexHandler)
      && (forall v :: v in st.table && v !in bound && !(noIndex && v == IndexRequest) ==> t[v] == st.table[v])
  {
  }

  /** The table `register_files` leaves: the old bindings and every
      scanned file bound to the file responder under its request path. */
  lemma FilesTable(st: NodeState, fs: Node)
    requires Valid(st) && RegisterFiles(st, fs).Some?
    ensures var r := RegisterFiles(st, fs).value;
      var bound := BoundPaths(r.servedFiles, Resolve(st.cwd, st.filesPath), FilePrefix);
      var t := r.table;
      && t.Keys == st.table.Keys + bound
      && (forall v :: v in bound ==> t[v] == FileHandler)
      && (forall v :: v in st.table && v !in bound ==> t[v] == st.table[v])
  {
  }

  /** Re-registration only adds or overwrites bindings: the set of bound
      request paths never shrinks, so a deleted page keeps its binding. */
  lemma KeysNeverShrink(st: NodeState, fs: Node)
    requires Valid(st)
    ensures RegisterPages(st, fs).Some? ==> st.table.Keys <= RegisterPages(st, fs).value.table.Keys
    ensures RegisterFiles(st, fs).Some? ==> st.table.Keys <= RegisterFiles(st, fs).value.table.Keys
  {
  }

  /** Every request path `register_files` binds starts with "/file/", so
      the page bindings are left exactly as they were. */
  lemma FilesLeavePagesAlone(st: NodeState, fs: Node)
    requires Valid(st) && RegisterFiles(st, fs).Some?
    ensures var t := RegisterFiles(st, fs).value.table;
      forall v :: StartsWith(v, PagePrefix) ==> (v in t <==> v in st.table) && (v in t ==> t[v] == st.table[v])
  {
    var root := Resolve(st.cwd, st.filesPath);
    var files := RegisterFiles(st, fs).value.servedFiles;
    var t := RegisterFiles(st, fs).value.table;
    assert t == Bind(st.table, files, root, FilePrefix, FileHandler);
    var bound := BoundPaths(files, root, FilePrefix);
    BoundUnderPrefix(files, root, FilePrefix);
    forall v | StartsWith(v, PagePrefix) ensures v !in bound {
      PrefixesApart(v);
    }
  }

  /** Every request path `register_pages` binds starts with "/page/", so
      the file bindings are left exactly as they were. */
  lemma PagesLeaveFilesAlone(st: NodeState, fs: Node)
    requires Valid(st) && RegisterPages(st, fs).Some?
    ensures var t := RegisterPages(st, fs).value.table;
      forall v :: StartsWith(v, FilePrefix) ==> (v in t <==> v in st.table) && (v in t ==> t[v] == st.table[v])
  {
    var root := Resolve(st.cwd, st.pagesPath);
    var pages := RegisterPages(st, fs).value.servedPages;
    var bound := BoundPaths(pages, root, PagePrefix);
    PagesTable(st, fs);
    BoundUnderPrefix(pages, root, PagePrefix);
    IndexRequestIsPage();
    forall v | StartsWith(v, FilePrefix) ensures v !in bound && v != IndexRequest {
      if v in bound || v == IndexRequest {
        PrefixesApart(v);
      }
    }
  }

  /** The table of a freshly constructed node: exactly the request paths
      of the scanned pages (to the page responder), of the scanned files
      (to the file responder), and "/page/index.mu" to the default home
      page when the pages root holds no regular `index.mu`. */
  lemma InitTable(cwd: Path, pagesPath: string, filesPath: string, fs: Node)
    requires Plain(cwd) && WellFormed(fs) && Init(cwd, pagesPath, filesPath, fs).Some?
    ensures var st := Init(cwd, pagesPath, filesPath, fs).value;
      var pageBound := BoundPaths(st.servedPages, Resolve(cwd, pagesPath), PagePrefix);
      var fileBound := BoundPaths(st.servedFiles, Resolve(cwd, filesPath), FilePrefix);
      var noIndex := !IsFile(fs, Resolve(cwd, pagesPath) + [IndexName]);
      && (forall v :: v in st.table <==> v in pageBound || v in fileBound || (noIndex && v == IndexRequest))
      && (forall v :: v in pageBound ==> st.table[v] == PageHandler)
      && (forall v :: v in fileBound ==> st.table[v] == FileHandler)
      && (noIndex ==> st.table[IndexRequest] == DefaultIndexHandler)
  {
    var st0 := NodeState(cwd, pagesPath, filesPath, [], [], map[]);
    var st1 := RegisterPages(st0, fs).value;
    var st := RegisterFiles(st1, fs).value;
    assert st == Init(cwd, pagesPath, filesPath, fs).value;
    FilesLeavePagesAlone(st1, fs);
    IndexBinding(st0, fs);
    var pageBound := BoundPaths(st.servedPages, Resolve(cwd, pagesPath), PagePrefix);
    BoundUnderPrefix(st.servedPages, Resolve(cwd, pagesPath), PagePrefix);
    forall v | v in pageBound ensures st.table[v] == PageHandler {
      assert StartsWith(v, PagePrefix);
    }
    IndexRequestIsPage();
  }

  /** The default home page is bound under the page prefix. */
  lemma IndexRequestIsPage()
    ensures StartsWith(IndexRequest, PagePrefix)
  {
    assert IndexRequest[..|PagePrefix|] == PagePrefix;
  }

  /** No request path starts with both "/page/" and "/file/". */
  lemma PrefixesApart(v: string)
    requires StartsWith(v, PagePrefix)
    ensures !StartsWith(v, FilePrefix)
  {
    assert v[1] == PagePrefix[1] != FilePrefix[1];
  }

  /** Every request path registering binds starts with the prefix. */
  lemma BoundUnderPrefix(paths: seq<Path>, root: Path, prefix: string)
    ensures forall v :: v in BoundPaths(paths, root, prefix) ==> StartsWith(v, prefix)
  {
    forall v | v in BoundPaths(paths, root, prefix) ensures StartsWith(v, prefix) {
      var p :| p in paths && VirtualPath(p, root, prefix) == Some(v);
      var rel := RelativeTo(Canonical(p), root).value;
      assert v == prefix + PosixJoin(rel);
      assert v[..|prefix|] == prefix;
    }
  }

  /** After `register_pages`, "/page/index.mu" is bound to the default
      home page exactly when the resolved pages root holds no regular file
      `index.mu`. When it does, the page itself is bound there, provided
      the root as written exists; when the root as written does not exist
      (a ".." after a missing directory), nothing is registered and any
      earlier binding of "/page/index.mu" stays as it was. */
  lemma IndexBinding(st: NodeState, fs: Node)
    requires Valid(st) && WellFormed(fs) && RegisterPages(st, fs).Some?
    ensures var t := RegisterPages(st, fs).value.table;
      var root := Resolve(st.cwd, st.pagesPath);
      var present := Exists(fs, Join(st.cwd, st.pagesPath));
      && (!IsFile(fs, root + [IndexName]) ==> IndexRequest in t && t[IndexRequest] == DefaultIndexHandler)
      && (IsFile(fs, root + [IndexName]) && present ==> IndexRequest in t && t[IndexRequest] == PageHandler)
      && (IsFile(fs, root + [IndexName]) && !present ==>
            (IndexRequest in t <==> IndexRequest in st.table) &&
            (IndexRequest in t ==> t[IndexRequest] == st.table[IndexRequest]))
  {
    var base := Join(st.cwd, st.pagesPath);
    var root := Resolve(st.cwd, st.pagesPath);
    var pages := Scan(fs, base, Pages).value;
    if IsFile(fs, root + [IndexName]) {
      if Exists(fs, base) {
        IndexFileServed(fs, st.cwd, st.pagesPath);
      } else {
        assert pages == [];
        assert BoundPaths(pages, root, PagePrefix) == {};
      }
    } else {
      forall v | v in BoundPaths(pages, root, PagePrefix) ensures v != IndexRequest {
        var x :| x in pages && VirtualPath(x, root, PagePrefix) == Some(v);
        IndexRequestIsIndexFile(fs, st.cwd, st.pagesPath, x, v);
      }
    }
  }

  /** A regular `index.mu` at the pages root is scanned and registered
      under "/page/index.mu" when the root as written exists. */
  lemma IndexFileServed(fs: Node, cwd: Path, pagesPath: string)
    requires Plain(cwd) && WellFormed(fs) && Scan(fs, Join(cwd, pagesPath), Pages).Some?
    requires Exists(fs, Join(cwd, pagesPath))
    requires IsFile(fs, Resolve(cwd, pagesPath) + [IndexName])
    ensures IndexRequest in BoundPaths(Scan(fs, Join(cwd, pagesPath), Pages).value, Resolve(cwd, pagesPath), PagePrefix)
  {
    var base := Join(cwd, pagesPath);
    var x := base + [IndexName];
    assert x[..|base|] == base && x[|base|..] == [IndexName];
    IndexNameFacts();
    ScanExactly(fs, base, Pages, x);
    ScannedVirtualPath(fs, cwd, pagesPath, Pages, PagePrefix, x);
  }

  /** Only the scanned `index.mu` at the root maps to "/page/index.mu". */
  lemma IndexRequestIsIndexFile(fs: Node, cwd: Path, pagesPath: string, x: Path, v: string)
    requires Plain(cwd) && WellFormed(fs)
    requires Scan(fs, Join(cwd, pagesPath), Pages).Some? && x in Scan(fs, Join(cwd, pagesPath), Pages).value
    requires VirtualPath(x, Resolve(cwd, pagesPath), PagePrefix) == Some(v)
    ensures v == IndexRequest ==> IsFile(fs, Resolve(cwd, pagesPath) + [IndexName])
  {
    var base := Join(cwd, pagesPath);
    var root := Resolve(cwd, pagesPath);
    if v == IndexRequest {
      assert |x| > |base| && Plain(x[|base|..]) by {
        ScannedRelIsPlain(fs, base, Pages, x);
      }
      var rel := x[|base|..];
      assert PagePrefix + PosixJoin(rel) == PagePrefix + IndexName by {
        ScannedVirtualPath(fs, cwd, pagesPath, Pages, PagePrefix, x);
        IndexNameFacts();
      }
      PrefixCancel(PagePrefix, PosixJoin(rel), IndexName);
      IndexRel(rel);
      assert IsFile(fs, root + rel) by {
        assert root == Canonical(base);
        ScanExactly(fs, base, Pages, x);
      }
    }
  }

  lemma PrefixCancel(prefix: string, a: string, b: string)
    requires prefix + a == prefix + b
    ensures a == b
  {
    assert (prefix + a)[|prefix|..] == a;
    assert (prefix + b)[|prefix|..] == b;
  }

  /** The only plain relative path written "index.mu" is that one segment. */
  lemma IndexRel(rel: Path)
    requires Plain(rel) && PosixJoin(rel) == IndexName
    ensures rel == [IndexName]
  {
    IndexNameFacts();
    SplitJoin(rel);
    SplitJoin([IndexName]);
  }

  lemma IndexNameFacts()
    ensures PlainSegment(IndexName) && !Hidden(IndexName) && EndsWith(IndexName, PageSuffix)
    ensures PosixJoin([IndexName]) == IndexName
    ensures IndexRequest == PagePrefix + IndexName
  {
    assert IndexName[|IndexName| - 3..] == PageSuffix;
    assert IndexName[..1][0] == 'i';
    assert '/' !in IndexName by {
      forall i | 0 <= i < |IndexName| ensures IndexName[i] != '/' {
      }
    }
  }

  /** The request path of an entry below a root leads back to that entry. */
  lemma TargetOfServed(root: Path, prefix: string, rel: Path)
    requires |prefix| == 6 && Plain(root) && Plain(rel) && |rel| >= 1
    ensures Target(root, prefix + PosixJoin(rel), prefix) == root + rel
    ensures Admitted(root, root + rel)
  {
    TargetOfJoined(root, prefix, rel);
    assert Plain(root + rel);
    CanonicalOfPlain(root + rel);
    assert (root + rel)[..|root|] == root;
    BelowIsAdmitted(root, root + rel);
  }

  /** A scanned entry, requested under its virtual path, is found again:
      the handler's target is the entry itself, it passes containment,
      and it is a regular file. */
  lemma ServedEntryTarget(fs: Node, cwd: Path, rootPath: string, mode: Mode, prefix: string, x: Path)
    requires Plain(cwd) && WellFormed(fs) && |prefix| == 6
    requires Scan(fs, Join(cwd, rootPath), mode).Some? && x in Scan(fs, Join(cwd, rootPath), mode).value
    ensures var base := Join(cwd, rootPath);
      var root := Resolve(cwd, rootPath);
      && |x| > |base|
      && Target(root, ServedRequest(cwd, rootPath, prefix, x), prefix) == root + x[|base|..]
      && Admitted(root, root + x[|base|..])
      && IsFile(fs, root + x[|base|..])
      && BaseName(root + x[|base|..]) == x[|x| - 1]
  {
    var base := Join(cwd, rootPath);
    var root := Resolve(cwd, rootPath);
    assert |x| > |base| && Plain(x[|base|..]) by {
      ScannedRelIsPlain(fs, base, mode, x);
    }
    var rel := x[|base|..];
    assert IsFile(fs, root + rel) by {
      assert root == Canonical(base);
      ScanExactly(fs, base, mode, x);
    }
    assert ServedRequest(cwd, rootPath, prefix, x) == prefix + PosixJoin(rel);
    TargetOfServed(root, prefix, rel);
    BaseNameOfSuffix(root, x, |base|);
  }

  lemma BaseNameOfSuffix(root: Path, x: Path, k: nat)
    requires k < |x|
    ensures BaseName(root + x[k..]) == x[|x| - 1]
  {
    var rel := x[k..];
    assert (root + rel)[|root + rel| - 1] == rel[|rel| - 1];
  }

  /** Round trip of file registration: the request path a served file is
      bound under is answered with a stream of that very file, named after
      it, or with the refusal when the file cannot be opened. */
  lemma ServedFileRoundTrip(st: NodeState, fs: Node, x: Path, data: RequestData,
                            linkId: Option<Bytes>, remote: Option<Bytes>, host: Host)
    requires Valid(st) && WellFormed(fs) && RegisterFiles(st, fs).Some?
    requires x in RegisterFiles(st, fs).value.servedFiles
    ensures var base := Join(st.cwd, st.filesPath);
      var t := Resolve(st.cwd, st.filesPath) + x[|base|..];
      var r := Dispatch(RegisterFiles(st, fs).value, fs, ServedRequest(st.cwd, st.filesPath, FilePrefix, x),
                        data, linkId, remote, host);
      && |x| > |base| && IsFile(fs, t)
      && r == Some(if Lookup(fs, t).value.readable then Stream(Lookup(fs, t).value.content, Utf8(x[|x| - 1])) else NotAllowed)
  {
    var st' := RegisterFiles(st, fs).value;
    var v := ServedRequest(st.cwd, st.filesPath, FilePrefix, x);
    FilesBound(st, fs);
    assert v in st'.table && st'.table[v] == FileHandler;
    ServedEntryTarget(fs, st.cwd, st.filesPath, AllFiles, FilePrefix, x);
    assert Dispatch(st', fs, v, data, linkId, remote, host) == Some(ServeFile(fs, st.cwd, st.filesPath, v));
  }

  /** Round trip of page registration: the request path a served page is
      bound under is answered from that very page; it is refused exactly
      when the page cannot be opened, and a page that does not start with
      `#!` is returned verbatim. */
  lemma ServedPageRoundTrip(st: NodeState, fs: Node, x: Path, data: RequestData,
                            linkId: Option<Bytes>, remote: Option<Bytes>, host: Host)
    requires Valid(st) && WellFormed(fs) && RegisterPages(st, fs).Some?
    requires x in RegisterPages(st, fs).value.servedPages
    ensures var base := Join(st.cwd, st.pagesPath);
      var t := Resolve(st.cwd, st.pagesPath) + x[|base|..];
      var r := Dispatch(RegisterPages(st, fs).value, fs, ServedRequest(st.cwd, st.pagesPath, PagePrefix, x),
                        data, linkId, remote, host);
      && |x| > |base| && IsFile(fs, t) && r.Some?
      && (r.value == NotAllowed <==> !Lookup(fs, t).value.readable)
      && (Lookup(fs, t).value.readable && !StartsWith(Lookup(fs, t).value.content, Shebang) ==>
            r.value == Content(Lookup(fs, t).value.content))
  {
    var st' := RegisterPages(st, fs).value;
    var v := ServedRequest(st.cwd, st.pagesPath, PagePrefix, x);
    var base := Join(st.cwd, st.pagesPath);
    var root := Resolve(st.cwd, st.pagesPath);
    var t := root + x[|base|..];
    assert v in st'.table && st'.table[v] == PageHandler by {
      PagesBound(st, fs);
    }
    assert |x| > |base| && IsFile(fs, t) && Target(root, v, PagePrefix) == t && Admitted(root, t) by {
      ServedEntryTarget(fs, st.cwd, st.pagesPath, Pages, PagePrefix, x);
    }
    PageAnswer(st', fs, v, t, data, linkId, remote, host);
  }

  /** Dispatch of a request bound to the page responder whose target is an
      admitted file. */
  lemma PageAnswer(st: NodeState, fs: Node, v: string, t: Path, data: RequestData,
                   linkId: Option<Bytes>, remote: Option<Bytes>, host: Host)
    requires Valid(st) && v in st.table && st.table[v] == PageHandler
    requires Target(Resolve(st.cwd, st.pagesPath), v, PagePrefix) == t
    requires Admitted(Resolve(st.cwd, st.pagesPath), t) && IsFile(fs, t)
    ensures var r := Dispatch(st, fs, v, data, linkId, remote, host);
      var f := Lookup(fs, t).value;
      && r.Some?
      && (r.value == NotAllowed <==> !f.readable)
      && (f.readable && !StartsWith(f.content, Shebang) ==> r.value == Content(f.content))
  {
    assert Dispatch(st, fs, v, data, linkId, remote, host) ==
      Some(ServePage(fs, st.cwd, st.pagesPath, v, data, linkId, remote, host));
    if Lookup(fs, t).value.readable {
      ScriptDecision(fs, st.cwd, st.pagesPath, v, data, linkId, remote, host);
    }
  }
}

=== FILE: scanner.dfy ===
/** `_scan_pages` and `_scan_files` of the page node: a depth-first walk
    that skips hidden entries (and the whole subtree below a hidden
    directory), descends into directories and keeps regular files, all of
    them in file mode and only the `.mu` ones in page mode. */
module Scanner {
  import opened Wrappers
  import opened Text
  import opened Paths
  import opened FileSystem

  datatype Mode = Pages | AllFiles

  const PageSuffix: string := ".mu"

  /** `name.startswith(".")`. */
  predicate Hidden(name: string) {
    StartsWith(name, ".")
  }

  /** Whether a regular file of this name is kept. */
  predicate Accepts(mode: Mode, name: string) {
    mode == AllFiles || EndsWith(name, PageSuffix)
  }

  /** The walk over the entries of directory `d` from index `i` on, with
      `base` the path (as the caller spelled it) of `d`. */
  function ScanFrom(base: Path, d: Node, i: nat, mode: Mode): (r: seq<Path>)
    requires d.Dir? && i <= |d.entries|
    ensures forall x :: x in r ==> |x| > |base| && x[..|base|] == base
    decreases d, |d.entries| - i
  {
    if i == |d.entries| then []
    else EntryScan(base, d, i, mode) + ScanFrom(base, d, i + 1, mode)
  }

  /** What entry `i` of `d` contributes: nothing when hidden, the walk of
      its subtree when a directory, itself when an accepted regular file. */
  function EntryScan(base: Path, d: Node, i: nat, mode: Mode): (r: seq<Path>)
    requires d.Dir? && i < |d.entries|
    ensures forall x :: x in r ==> |x| > |base| && x[..|base| + 1] == base + [d.entries[i].name]
    decreases d, 0
  {
    var e := d.entries[i];
    if Hidden(e.name) then []
    else match e.node
      case Dir(_) =>
        var r := ScanFrom(base + [e.name], e.node, 0, mode);
        assert forall x :: x in r ==> x[..|base| + 1] == (base + [e.name]);
        r
      case File(_, _, _) => if Accepts(mode, e.name) then [base + [e.name]] else []
  }

  /** The scan of the tree at `base`, a path as written (".." included):
      a root that `exists()` denies gives the empty list, a root that is a
      regular file makes `iterdir()` raise (None). */
  function Scan(fs: Node, base: Path, mode: Mode): (r: Option<seq<Path>>)
    ensures !Exists(fs, base) ==> r == Some([])
    ensures r.None? <==> Exists(fs, base) && Walk(fs, [], base).value.File?
  {
    match Walk(fs, [], base)
    case None => Some([])
    case Some(File(_, _, _)) => None
    case Some(d) => Some(ScanFrom(base, d, 0, mode))
  }

  predicate NoHidden(rel: Path) {
    forall k :: 0 <= k < |rel| ==> !Hidden(rel[k])
  }

  /** `rel` leads from `d` through non-hidden directories to a non-hidden
      regular file that the mode accepts. */
  ghost predicate Served(d: Node, rel: Path, mode: Mode) {
    && |rel| > 0
    && NoHidden(rel)
    && LookupIn(d, rel).Some? && LookupIn(d, rel).value.File?
    && Accepts(mode, rel[|rel| - 1])
  }

  /** Served, one directory level at a time. */
  lemma ServedStep(es: seq<Entry>, rel: Path, mode: Mode, j: nat)
    requires |rel| > 0 && Find(es, rel[0]) == Some(j)
    ensures Served(Dir(es), rel, mode) <==>
      !Hidden(rel[0]) &&
      (if |rel| == 1 then es[j].node.File? && Accepts(mode, rel[0])
       else Served(es[j].node, rel[1..], mode))
  {
    assert LookupIn(Dir(es), rel) == LookupIn(es[j].node, rel[1..]);
    if |rel| > 1 {
      assert rel[|rel| - 1] == rel[1..][|rel| - 2];
      assert NoHidden(rel) <==> !Hidden(rel[0]) && NoHidden(rel[1..]) by {
        if !Hidden(rel[0]) && NoHidden(rel[1..]) {
          forall k | 0 <= k < |rel| ensures !Hidden(rel[k]) {
            if k > 0 { assert rel[k] == rel[1..][k - 1]; }
          }
        }
      }
    }
  }

  /** The generalised membership fact behind `ScanExactly`. */
  lemma {:induction false} ScanFromMembers(base: Path, d: Node, i: nat, mode: Mode, x: Path)
    requires d.Dir? && i <= |d.entries| && WellFormed(d)
    ensures x in ScanFrom(base, d, i, mode) <==>
      && |x| > |base| && x[..|base|] == base
      && Find(d.entries, x[|base|]).Some? && Find(d.entries, x[|base|]).value >= i
      && Served(d, x[|base|..], mode)
    decreases d, |d.entries| - i + 2
  {
    var es := d.entries;
    if i < |es| {
      var here, rest := EntryScan(base, d, i, mode), ScanFrom(base, d, i + 1, mode);
      assert ScanFrom(base, d, i, mode) == here + rest;
      assert x in here + rest <==> x in here || x in rest;
      EntryScanMembers(base, d, i, mode, x);
      ScanFromMembers(base, d, i + 1, mode, x);
      if |x| > |base| {
        FindFrom(es, i, x[|base|]);
      }
    }
  }

  /** In a well-formed directory, a name found at index `i` or later is
      entry `i`'s name or found after it. */
  lemma FindFrom(es: seq<Entry>, i: nat, name: string)
    requires WellFormed(Dir(es)) && i < |es|
    ensures (Find(es, name).Some? && Find(es, name).value >= i) <==>
      (name == es[i].name || (Find(es, name).Some? && Find(es, name).value >= i + 1))
  {
    FindUnique(es, i);
  }

  lemma {:induction false} EntryScanMembers(base: Path, d: Node, i: nat, mode: Mode, x: Path)
    requires d.Dir? && i < |d.entries| && WellFormed(d)
    ensures x in EntryScan(base, d, i, mode) <==>
      && |x| > |base| && x[..|base|] == base
      && x[|base|] == d.entries[i].name
      && Served(d, x[|base|..], mode)
    decreases d, 1
  {
    var e := d.entries[i];
    if Hidden(e.name) {
      HiddenEntryMembers(base, d, i, mode, x);
    } else if e.node.Dir? {
      DirEntryMembers(base, d, i, mode, x);
    } else {
      FileEntryMembers(base, d, i, mode, x);
    }
  }

  /** A path continues `base` with `name` exactly when its next segment is `name`. */
  lemma NextSegment(base: Path, name: string, x: Path)
    requires |x| > |base|
    ensures x[..|base| + 1] == base + [name] <==> x[..|base|] == base && x[|base|] == name
  {
    assert x[..|base| + 1] == x[..|base|] + [x[|base|]];
  }

  /** What `x` asks of entry `i` once its next segment names that entry. */
  lemma EntryStep(base: Path, d: Node, i: nat, mode: Mode, x: Path)
    requires d.Dir? && i < |d.entries| && WellFormed(d)
    requires |x| > |base| && x[|base|] == d.entries[i].name
    ensures var rel := x[|base|..];
      Served(d, rel, mode) <==>
        !Hidden(d.entries[i].name) &&
        (if |x| == |base| + 1 then d.entries[i].node.File? && Accepts(mode, d.entries[i].name)
         else Served(d.entries[i].node, x[|base| + 1..], mode))
  {
    var rel := x[|base|..];
    FindUnique(d.entries, i);
    ServedStep(d.entries, rel, mode, i);
    assert rel[1..] == x[|base| + 1..];
  }

  lemma HiddenEntryMembers(base: Path, d: Node, i: nat, mode: Mode, x: Path)
    requires d.Dir? && i < |d.entries| && WellFormed(d) && Hidden(d.entries[i].name)
    ensures x in EntryScan(base, d, i, mode) <==>
      && |x| > |base| && x[..|base|] == base
      && x[|base|] == d.entries[i].name
      && Served(d, x[|base|..], mode)
  {
    if |x| > |base| && x[|base|] == d.entries[i].name {
      EntryStep(base, d, i, mode, x);
    }
  }

  lemma FileEntryMembers(base: Path, d: Node, i: nat, mode: Mode, x: Path)
    requires d.Dir? && i < |d.entries| && WellFormed(d)
    requires !Hidden(d.entries[i].name) && d.entries[i].node.File?
    ensures x in EntryScan(base, d, i, mode) <==>
      && |x| > |base| && x[..|base|] == base
      && x[|base|] == d.entries[i].name
      && Served(d, x[|base|..], mode)
  {
    var e := d.entries[i];
    if |x| > |base| {
      NextSegment(base, e.name, x);
      if x[|base|] == e.name {
        EntryStep(base, d, i, mode, x);
        if |x| == |base| + 1 {
          assert x == x[..|base| + 1];
        }
      }
    }
  }

  lemma {:induction false} DirEntryMembers(base: Path, d: Node, i: nat, mode: Mode, x: Path)
    requires d.Dir? && i < |d.entries| && WellFormed(d)
    requires !Hidden(d.entries[i].name) && d.entries[i].node.Dir?
    ensures x in EntryScan(base, d, i, mode) <==>
      && |x| > |base| && x[..|base|] == base
      && x[|base|] == d.entries[i].name
      && Served(d, x[|base|..], mode)
    decreases d, 0
  {
    var e := d.entries[i];
    var sub := base + [e.name];
    assert EntryScan(base, d, i, mode) == ScanFrom(sub, e.node, 0, mode);
    assert WellFormed(e.node);
    ScanFromMembers(sub, e.node, 0, mode, x);
    if |x| > |base| {
      NextSegment(base, e.name, x);
      if x[|base|] == e.name {
        EntryStep(base, d, i, mode, x);
        if |x| > |sub| {
          assert x[|sub|..] == x[|base| + 1..];
          ServedHasEntry(e.node, x[|sub|..], mode);
        }
      }
    }
  }

  /** A path served from a directory starts with one of its entries. */
  lemma ServedHasEntry(n: Node, rel: Path, mode: Mode)
    requires n.Dir?
    ensures Served(n, rel, mode) ==> Find(n.entries, rel[0]).Some?
  {
  }

  /** The scan of a base that exists yields exactly the paths `base + rel`
      for which `rel` is non-empty, has no hidden segment, and leads from
      the resolved base to a regular file the mode accepts (`.mu` in page
      mode, anything in file mode). A base that does not exist yields
      nothing. */
  lemma ScanExactly(fs: Node, base: Path, mode: Mode, x: Path)
    requires WellFormed(fs) && Scan(fs, base, mode).Some?
    ensures x in Scan(fs, base, mode).value <==>
      && Exists(fs, base)
      && |x| > |base| && x[..|base|] == base
      && NoHidden(x[|base|..])
      && IsFile(fs, Canonical(base) + x[|base|..])
      && Accepts(mode, x[|x| - 1])
  {
    var cb := Canonical(base);
    if Exists(fs, base) {
      var d := Walk(fs, [], base).value;
      assert Lookup(fs, cb) == Some(d) by { WalkLexical(fs, [], base); }
      assert d.Dir? && WellFormed(d) by { LookupWellFormed(fs, cb); }
      assert Scan(fs, base, mode).value == ScanFrom(base, d, 0, mode);
      assert x in ScanFrom(base, d, 0, mode) <==>
        |x| > |base| && x[..|base|] == base && Served(d, x[|base|..], mode) by {
        ScanTopMembers(base, d, mode, x);
      }
      if |x| > |base| {
        var rel := x[|base|..];
        assert x[|x| - 1] == rel[|rel| - 1];
        assert Served(d, rel, mode) <==>
          NoHidden(rel) && IsFile(fs, cb + rel) && Accepts(mode, rel[|rel| - 1]) by {
          ServedIsFile(fs, cb, d, rel, mode);
        }
      }
    }
  }

  /** The scan follows the base as written: a pages root such as
      `nodir/../pages` with no `nodir` lists nothing, even when its
      resolution is a directory full of pages. */
  lemma UnresolvedBaseMissing(fs: Node, missing: string, name: string, mode: Mode)
    requires fs.Dir? && Find(fs.entries, missing).None? && PlainSegment(missing)
    ensures Scan(fs, [missing, "..", name], mode) == Some([])
    ensures Canonical([missing, "..", name]) == Canonical([name])
  {
    MissingThenUp(fs, missing, name);
  }

  /** `ScanFromMembers` for the whole directory. */
  lemma ScanTopMembers(base: Path, d: Node, mode: Mode, x: Path)
    requires d.Dir? && WellFormed(d)
    ensures x in ScanFrom(base, d, 0, mode) <==>
      |x| > |base| && x[..|base|] == base && Served(d, x[|base|..], mode)
  {
    ScanFromMembers(base, d, 0, mode, x);
    if |x| > |base| {
      ServedHasEntry(d, x[|base|..], mode);
    }
  }

  /** Served from the directory at `cb` means a regular file at `cb + rel`. */
  lemma ServedIsFile(fs: Node, cb: Path, d: Node, rel: Path, mode: Mode)
    requires Lookup(fs, cb) == Some(d)
    ensures Served(d, rel, mode) <==>
      |rel| > 0 && NoHidden(rel) && IsFile(fs, cb + rel) && Accepts(mode, rel[|rel| - 1])
  {
    LookupAppend(fs, cb, rel);
  }

  /** Every scanned path has a non-hidden, plain relative part below the
      base: the pieces the registration turns into virtual paths. */
  lemma ScannedRelIsPlain(fs: Node, base: Path, mode: Mode, x: Path)
    requires WellFormed(fs) && Scan(fs, base, mode).Some? && x in Scan(fs, base, mode).value
    ensures |x| > |base| && x[..|base|] == base
    ensures Plain(x[|base|..]) && NoHidden(x[|base|..])
  {
    ScanExactly(fs, base, mode, x);
    var rel := x[|base|..];
    var cb := Canonical(base);
    LookupPlain(fs, cb, rel);
  }

  /** Segments that a lookup in a well-formed tree follows name entries,
      so they are plain. */
  lemma {:induction false} LookupPlain(n: Node, pre: Path, rel: Path)
    requires WellFormed(n) && LookupIn(n, pre + rel).Some?
    ensures Plain(rel)
    decreases |rel|
  {
    if rel != [] {
      LookupAppend(n, pre, rel);
      var m := LookupIn(n, pre).value;
      LookupWellFormed(n, pre);
      match m
      case Dir(es) =>
        var j := Find(es, rel[0]).value;
        assert PlainSegment(rel[0]);
        LookupAppend(n, pre, [rel[0]]);
        assert LookupIn(m, [rel[0]]) == LookupIn(es[j].node, []);
        assert (pre + [rel[0]]) + rel[1..] == pre + rel;
        LookupPlain(n, pre + [rel[0]], rel[1..]);
        forall k | 0 <= k < |rel| ensures PlainSegment(rel[k]) {
          if k > 0 { assert rel[k] == rel[1..][k - 1]; }
        }
    }
  }

  predicate Distinct<T(==)>(s: seq<T>) {
    forall i, j :: 0 <= i < j < |s| ==> s[i] != s[j]
  }

  /** In a well-formed tree the walk never yields a path twice. */
  lemma {:induction false} ScanFromDistinct(base: Path, d: Node, i: nat, mode: Mode)
    requires d.Dir? && i <= |d.entries| && WellFormed(d)
    ensures Distinct(ScanFrom(base, d, i, mode))
    decreases d, |d.entries| - i
  {
    var es := d.entries;
    if i < |es| {
      var e := es[i];
      var here, rest := EntryScan(base, d, i, mode), ScanFrom(base, d, i + 1, mode);
      ScanFromDistinct(base, d, i + 1, mode);
      if !Hidden(e.name) && e.node.Dir? {
        ScanFromDistinct(base + [e.name], e.node, 0, mode);
      }
      forall x | x in here ensures x[|base|] == e.name {
        assert x[..|base| + 1][|base|] == (base + [e.name])[|base|];
      }
      FindUnique(es, i);
      forall x | x in rest ensures x !in here {
        ScanFromMembers(base, d, i + 1, mode, x);
      }
      DistinctAppend(here, rest);
    }
  }

  lemma DistinctAppend<T>(a: seq<T>, b: seq<T>)
    requires Distinct(a) && Distinct(b)
    requires forall x :: x in b ==> x !in a
    ensures Distinct(a + b)
  {
    forall i, j | 0 <= i < j < |a + b| ensures (a + b)[i] != (a + b)[j] {
      if i < |a| && j >= |a| {
        assert (a + b)[j] == b[j - |a|];
        assert (a + b)[j] in b;
      }
      if i >= |a| {
        assert (a + b)[i] == b[i - |a|] && (a + b)[j] == b[j - |a|];
      }
    }
  }

  /** Neither scan yields a path twice. */
  lemma ScanDistinct(fs: Node, base: Path, mode: Mode)
    requires WellFormed(fs) && Scan(fs, base, mode).Some?
    ensures Distinct(Scan(fs, base, mode).value)
  {
    match Walk(fs, [], base)
    case None =>
    case Some(d) =>
      WalkLexical(fs, [], base);
      LookupWellFormed(fs, Canonical(base));
      ScanFromDistinct(base, d, 0, mode);
  }

  /** A scanned path names a page when its last segment ends in `.mu`. */
  predicate IsPagePath(p: Path) {
    |p| > 0 && EndsWith(p[|p| - 1], PageSuffix)
  }

  function FilterPages(ps: seq<Path>): (r: seq<Path>)
    ensures forall x :: x in r <==> x in ps && IsPagePath(x)
  {
    if ps == [] then []
    else (if IsPagePath(ps[0]) then [ps[0]] else []) + FilterPages(ps[1..])
  }

  lemma {:induction false} FilterPagesAppend(a: seq<Path>, b: seq<Path>)
    ensures FilterPages(a + b) == FilterPages(a) + FilterPages(b)
    decreases |a|
  {
    if a == [] {
      assert a + b == b;
    } else {
      assert (a + b)[0] == a[0] && (a + b)[1..] == a[1..] + b;
      FilterPagesAppend(a[1..], b);
    }
  }

  lemma {:induction false} ScanFromPagesFilter(base: Path, d: Node, i: nat)
    requires d.Dir? && i <= |d.entries|
    ensures ScanFrom(base, d, i, Pages) == FilterPages(ScanFrom(base, d, i, AllFiles))
    decreases d, |d.entries| - i
  {
    if i < |d.entries| {
      var e := d.entries[i];
      ScanFromPagesFilter(base, d, i + 1);
      var hereAll := EntryScan(base, d, i, AllFiles);
      FilterPagesAppend(hereAll, ScanFrom(base, d, i + 1, AllFiles));
      if !Hidden(e.name) {
        match e.node
        case Dir(_) => ScanFromPagesFilter(base + [e.name], e.node, 0);
        case File(_, _, _) =>
          assert FilterPages([base + [e.name]]) == (if IsPagePath(base + [e.name]) then [base + [e.name]] else []) + FilterPages([]);
      }
    }
  }

  /** The page scan is the file scan restricted, in order, to names ending
      in `.mu`; in particular every page is also a served file. */
  lemma PagesAreFilteredFiles(fs: Node, base: Path)
    ensures Scan(fs, base, Pages).Some? <==> Scan(fs, base, AllFiles).Some?
    ensures Scan(fs, base, Pages).Some? ==>
      Scan(fs, base, Pages).value == FilterPages(Scan(fs, base, AllFiles).value)
  {
    match Walk(fs, [], base)
    case None =>
    case Some(d) =>
      if d.Dir? { ScanFromPagesFilter(base, d, 0); }
  }
}

=== FILE: schedule.dfy ===
/** The per-tick decisions of the two background loops of `core.py`: when to
    announce and how long to sleep afterwards, and when to rescan the page
    and file roots. Time is an integer count of milliseconds (the loops'
    `time.time()` seconds times 1000), so the half-second floor of the
    refresh wait is exact. Every clock reading is a parameter. */
module Schedule {
  import opened Wrappers
  import opened Text
  import opened Paths
  import opened FileSystem
  import opened Scanner
  import opened Registry

  const Second: int := 1000

  /** The longest single sleep of either loop: one minute. */
  const MaxWait: int := 60 * Second

  /** The shortest sleep of the announce loop: one second. */
  const MinAnnounceWait: int := Second

  /** The shortest sleep of the refresh loop: half a second. */
  const MinRefreshWait: int := Second / 2

  /** What the refresh loop sleeps when both rescans are disabled. */
  const IdleRefreshWait: int := Second

  function Max(a: int, b: int): int { if a >= b then a else b }
  function Min(a: int, b: int): int { if a <= b then a else b }

  /** The announce interval: a non-positive number of minutes means
      "announce on every tick". */
  function AnnounceIntervalMs(minutes: int): (ms: nat)
    ensures minutes <= 0 ==> ms == 0
    ensures minutes > 0 ==> ms == minutes * 60 * Second
  {
    Max(minutes, 0) * 60 * Second
  }

  /** An announce is due on the first tick (`last_announce` still 0) and
      whenever a full interval has passed since the last one. */
  predicate AnnounceDue(last: int, now: int, minutes: int)
    ensures minutes <= 0 ==> (AnnounceDue(last, now, minutes) <==> last == 0 || now >= last)
    ensures minutes > 0 && last != 0 && now < last + minutes * 60 * Second ==> !AnnounceDue(last, now, minutes)
  {
    last == 0 || now - last >= AnnounceIntervalMs(minutes)
  }

  /** How an attempted announce ends: sent; refused with a `TypeError` or
      `ValueError` (logged, the loop goes on); or any other exception, which
      ends the loop. */
  datatype AnnounceOutcome = Announced | Rejected | Crashed

  /** The application data of an announce: the node name's UTF-8 bytes,
      or none when the name is missing or empty. */
  function AnnounceData(name: Option<string>): (d: Option<Bytes>)
    ensures d.Some? <==> name.Some? && name.value != ""
    ensures d.Some? ==> |d.value| >= |name.value| > 0
  {
    if name.Some? && name.value != "" then Some(Utf8(name.value)) else None
  }

  /** What a loop does after one tick: sleep `wait` ms and go on with the
      new state, or leave the loop. */
  datatype Tick<S> = Continue(state: S, wait: int) | Stopped

  /** One pass of `_announce_loop`: the tick starts at `now`, a successful
      announce finishes at `sentAt` (recorded as the new `last_announce`),
      and the wait is computed at `waitFrom`. */
  function AnnounceTick(last: int, minutes: int, now: int, sentAt: int, waitFrom: int,
                        outcome: AnnounceOutcome): (t: Tick<int>)
    ensures t.Stopped? <==> AnnounceDue(last, now, minutes) && outcome == Crashed
    ensures t.Continue? ==> MinAnnounceWait <= t.wait <= MaxWait
    ensures t.Continue? ==>
      t.wait == Min(Max(if t.state != 0 then t.state + AnnounceIntervalMs(minutes) - waitFrom else 0,
                        MinAnnounceWait), MaxWait)
  {
    var interval := AnnounceIntervalMs(minutes);
    if AnnounceDue(last, now, minutes) && outcome == Crashed then Stopped
    else
      var last' := if AnnounceDue(last, now, minutes) && outcome == Announced then sentAt else last;
      var remaining := if last' != 0 then last' + interval - waitFrom else 0;
      Continue(last', Min(Max(remaining, MinAnnounceWait), MaxWait))
  }

  /** `last_announce` moves only when an announce actually went out, and
      then to the moment it finished. */
  lemma AnnounceRecordsOnlySuccess(last: int, minutes: int, now: int, sentAt: int, waitFrom: int,
                                   outcome: AnnounceOutcome)
    requires AnnounceTick(last, minutes, now, sentAt, waitFrom, outcome).Continue?
    ensures var t := AnnounceTick(last, minutes, now, sentAt, waitFrom, outcome);
      && (AnnounceDue(last, now, minutes) && outcome == Announced ==> t.state == sentAt)
      && (!AnnounceDue(last, now, minutes) || outcome != Announced ==> t.state == last)
  {
  }

  /** Once something has been announced, a tick that comes less than an
      interval later announces nothing, whatever the outcome would be. */
  lemma NoEarlyAnnounce(last: int, minutes: int, now: int, sentAt: int, waitFrom: int,
                        outcome: AnnounceOutcome)
    requires last != 0 && now - last < AnnounceIntervalMs(minutes)
    ensures AnnounceTick(last, minutes, now, sentAt, waitFrom, outcome) ==
      AnnounceTick(last, minutes, now, sentAt, waitFrom, Rejected)
    ensures AnnounceTick(last, minutes, now, sentAt, waitFrom, outcome).Continue?
    ensures AnnounceTick(last, minutes, now, sentAt, waitFrom, outcome).state == last
  {
  }

  /** The wait is long enough: unless it was cut to one minute, a tick that
      starts after sleeping it finds the next announce due. */
  lemma WaitReachesDeadline(last: int, minutes: int, now: int, sentAt: int, waitFrom: int,
                            outcome: AnnounceOutcome, next: int)
    requires AnnounceTick(last, minutes, now, sentAt, waitFrom, outcome).Continue?
    requires var t := AnnounceTick(last, minutes, now, sentAt, waitFrom, outcome);
      t.wait < MaxWait && next >= waitFrom + t.wait
    ensures AnnounceDue(AnnounceTick(last, minutes, now, sentAt, waitFrom, outcome).state, next, minutes)
  {
  }

  /** The clock readings of one announce tick, in the order they are taken. */
  datatype AnnounceClock = AnnounceClock(now: int, sentAt: int, waitFrom: int, outcome: AnnounceOutcome)

  /** Readings that never go backwards, within a tick and from one tick to
      the next. */
  predicate Monotone(cs: seq<AnnounceClock>) {
    && (forall i :: 0 <= i < |cs| ==> cs[i].now <= cs[i].sentAt <= cs[i].waitFrom)
    && (forall i :: 0 < i < |cs| ==> cs[i - 1].waitFrom <= cs[i].now)
  }

  /** The `last_announce` values a run of the loop records, in order, until
      the loop ends or the readings run out. */
  function Announcements(last: int, minutes: int, cs: seq<AnnounceClock>): (r: seq<int>)
    decreases |cs|
  {
    if cs == [] then []
    else
      var c := cs[0];
      match AnnounceTick(last, minutes, c.now, c.sentAt, c.waitFrom, c.outcome)
      case Stopped => []
      case Continue(last', _) =>
        (if last' != last then [last'] else []) + Announcements(last', minutes, cs[1..])
  }

  /** Recorded announce times `a` that are `gap` apart from one another,
      and from a non-zero `last` before them, and never before `last`. */
  predicate Spaced(last: int, a: seq<int>, gap: int) {
    && (forall i :: 0 < i < |a| ==> a[i] - a[i - 1] >= gap)
    && (last != 0 && |a| > 0 ==> a[0] - last >= gap)
    && (forall i :: 0 <= i < |a| ==> last <= a[i])
  }

  /** Over any run with a clock that does not go backwards, two recorded
      announces are at least one interval apart, and the first comes at
      least an interval after an earlier one. */
  lemma {:induction false} AnnouncementsSpaced(last: int, minutes: int, cs: seq<AnnounceClock>)
    requires Monotone(cs) && 0 <= last
    requires |cs| > 0 ==> last <= cs[0].now
    ensures Spaced(last, Announcements(last, minutes, cs), AnnounceIntervalMs(minutes))
    decreases |cs|
  {
    if cs != [] {
      var c := cs[0];
      var t := AnnounceTick(last, minutes, c.now, c.sentAt, c.waitFrom, c.outcome);
      if t.Continue? {
        var rest := cs[1..];
        MonotoneTail(cs);
        TickRecords(last, minutes, c);
        AnnouncementsSpaced(t.state, minutes, rest);
        var tail := Announcements(t.state, minutes, rest);
        if t.state != last {
          assert Announcements(last, minutes, cs) == [t.state] + tail;
          SpacedCons(last, t.state, tail, AnnounceIntervalMs(minutes));
        } else {
          assert Announcements(last, minutes, cs) == tail;
        }
      }
    }
  }

  /** The rest of a monotone run is monotone and starts no earlier than
      the first tick's wait. */
  lemma MonotoneTail(cs: seq<AnnounceClock>)
    requires Monotone(cs) && |cs| > 0
    ensures Monotone(cs[1..])
    ensures |cs| > 1 ==> cs[0].waitFrom <= cs[1..][0].now
  {
    var rest := cs[1..];
    assert forall i :: 0 <= i < |rest| ==> rest[i] == cs[i + 1];
  }

  /** What one continuing tick records: either nothing new, or a non-zero
      time no earlier than its start and a full interval after a
      non-zero previous record. */
  lemma TickRecords(last: int, minutes: int, c: AnnounceClock)
    requires 0 <= last <= c.now <= c.sentAt <= c.waitFrom
    requires AnnounceTick(last, minutes, c.now, c.sentAt, c.waitFrom, c.outcome).Continue?
    ensures var s := AnnounceTick(last, minutes, c.now, c.sentAt, c.waitFrom, c.outcome).state;
      && 0 <= last <= s <= c.waitFrom
      && (s != last ==> s != 0 && (last != 0 ==> s - last >= AnnounceIntervalMs(minutes)))
  {
  }

  /** Prepending a record that is spaced from `last` keeps the run spaced. */
  lemma SpacedCons(last: int, x: int, tail: seq<int>, gap: int)
    requires Spaced(x, tail, gap) && x != 0 && last <= x
    requires last != 0 ==> x - last >= gap
    ensures Spaced(last, [x] + tail, gap)
  {
    var a := [x] + tail;
    forall i | 0 < i < |a| ensures a[i] - a[i - 1] >= gap {
      if i > 1 { assert a[i] == tail[i - 1] && a[i - 1] == tail[i - 2]; }
    }
  }

  /** What the refresh loop keeps between ticks: the node's registration
      state, the two rescan intervals in seconds (0 or less disables one)
      and when each rescan last finished. */
  datatype RefreshState = RefreshState(
    node: NodeState,
    pageInterval: int,
    fileInterval: int,
    lastPages: int,
    lastFiles: int)

  /** A rescan is due when its interval is positive and has elapsed. */
  predicate RefreshDue(interval: int, last: int, now: int)
    ensures interval <= 0 ==> !RefreshDue(interval, last, now)
    ensures interval > 0 && now >= last + interval * Second ==> RefreshDue(interval, last, now)
  {
    interval > 0 && now - last >= interval * Second
  }

  /** The sleep of one refresh axis: until its next rescan, but at least
      half a second. */
  function AxisWait(interval: int, last: int, waitFrom: int): (w: int)
    ensures w >= MinRefreshWait
  {
    Max(last + interval * Second - waitFrom, MinRefreshWait)
  }

  /** The sleep after a refresh tick: the nearest enabled axis, one second
      when neither is enabled, and never more than a minute. */
  function RefreshWait(pageInterval: int, fileInterval: int, lastPages: int, lastFiles: int,
                       waitFrom: int): (w: int)
    ensures MinRefreshWait <= w <= MaxWait
    ensures pageInterval <= 0 && fileInterval <= 0 ==> w == IdleRefreshWait
    ensures pageInterval > 0 ==> w <= AxisWait(pageInterval, lastPages, waitFrom)
    ensures fileInterval > 0 ==> w <= AxisWait(fileInterval, lastFiles, waitFrom)
  {
    var w :=
      if pageInterval > 0 && fileInterval > 0 then
        Min(AxisWait(pageInterval, lastPages, waitFrom), AxisWait(fileInterval, lastFiles, waitFrom))
      else if pageInterval > 0 then AxisWait(pageInterval, lastPages, waitFrom)
      else if fileInterval > 0 then AxisWait(fileInterval, lastFiles, waitFrom)
      else IdleRefreshWait;
    Min(w, MaxWait)
  }

  /** The refresh wait is long enough: unless it was cut to one minute, a
      tick that starts after sleeping it finds some enabled rescan due. */
  lemma RefreshWaitReachesDeadline(pageInterval: int, fileInterval: int, lastPages: int, lastFiles: int,
                                   waitFrom: int, next: int)
    requires pageInterval > 0 || fileInterval > 0
    requires var w := RefreshWait(pageInterval, fileInterval, lastPages, lastFiles, waitFrom);
      w < MaxWait && next >= waitFrom + w
    ensures RefreshDue(pageInterval, lastPages, next) || RefreshDue(fileInterval, lastFiles, next)
  {
  }

  /** One pass of `_refresh_loop` against the filesystem `fs`: the tick
      starts at `now`; the page rescan, when due, finishes at `pagesAt`, the
      file rescan at `filesAt`, and the wait is computed at `waitFrom`. A
      rescan that raises ends the loop. */
  function RefreshTick(rs: RefreshState, fs: Node, now: int, pagesAt: int, filesAt: int,
                       waitFrom: int): (t: Tick<RefreshState>)
    requires Valid(rs.node)
    ensures t.Continue? ==> MinRefreshWait <= t.wait <= MaxWait && Valid(t.state.node)
    ensures t.Continue? ==> t.state.pageInterval == rs.pageInterval && t.state.fileInterval == rs.fileInterval
  {
    var afterPages :=
      if RefreshDue(rs.pageInterval, rs.lastPages, now) then
        match RegisterPages(rs.node, fs)
        case None => None
        case Some(n) => Some(rs.(node := n, lastPages := pagesAt))
      else Some(rs);
    match afterPages
    case None => Stopped
    case Some(rs1) =>
      var afterFiles :=
        if RefreshDue(rs1.fileInterval, rs1.lastFiles, now) then
          match RegisterFiles(rs1.node, fs)
          case None => None
          case Some(n) => Some(rs1.(node := n, lastFiles := filesAt))
        else Some(rs1);
      match afterFiles
      case None => Stopped
      case Some(rs2) =>
        Continue(rs2, RefreshWait(rs2.pageInterval, rs2.fileInterval, rs2.lastPages, rs2.lastFiles, waitFrom))
  }

  /** A due axis whose rescan succeeds registers again and records when
      it finished; an axis that is not due keeps its served list and its
      time. The roots never change, and the wait is computed from the
      times the tick leaves. */
  lemma DueAxisRescans(rs: RefreshState, fs: Node, now: int, pagesAt: int, filesAt: int, waitFrom: int)
    requires Valid(rs.node)
    ensures var t := RefreshTick(rs, fs, now, pagesAt, filesAt, waitFrom);
      var n := rs.node;
      t.Continue? ==>
        && t.state.node.cwd == n.cwd && t.state.node.pagesPath == n.pagesPath && t.state.node.filesPath == n.filesPath
        && (RefreshDue(rs.pageInterval, rs.lastPages, now) ==>
              t.state.lastPages == pagesAt && t.state.node.servedPages == Scan(fs, Join(n.cwd, n.pagesPath), Pages).value)
        && (!RefreshDue(rs.pageInterval, rs.lastPages, now) ==>
              t.state.lastPages == rs.lastPages && t.state.node.servedPages == n.servedPages)
        && (RefreshDue(rs.fileInterval, rs.lastFiles, now) ==>
              t.state.lastFiles == filesAt && t.state.node.servedFiles == Scan(fs, Join(n.cwd, n.filesPath), AllFiles).value)
        && (!RefreshDue(rs.fileInterval, rs.lastFiles, now) ==>
              t.state.lastFiles == rs.lastFiles && t.state.node.servedFiles == n.servedFiles)
        && t.wait == RefreshWait(rs.pageInterval, rs.fileInterval, t.state.lastPages, t.state.lastFiles, waitFrom)
  {
  }

  /** The node a tick leaves is the one the due registrations build, pages
      first: `register_pages` then `register_files` when both are due. */
  lemma DueAxesRegister(rs: RefreshState, fs: Node, now: int, pagesAt: int, filesAt: int, waitFrom: int)
    requires Valid(rs.node)
    ensures var t := RefreshTick(rs, fs, now, pagesAt, filesAt, waitFrom);
      var pageDue := RefreshDue(rs.pageInterval, rs.lastPages, now);
      var fileDue := RefreshDue(rs.fileInterval, rs.lastFiles, now);
      t.Continue? ==>
        && (pageDue && fileDue ==> t.state.node == RegisterFiles(RegisterPages(rs.node, fs).value, fs).value)
        && (pageDue && !fileDue ==> t.state.node == RegisterPages(rs.node, fs).value)
        && (!pageDue && fileDue ==> t.state.node == RegisterFiles(rs.node, fs).value)
  {
  }

  /** A disabled page axis never rescans: the served pages and the time of
      the last page rescan stay as they were. Likewise for files. */
  lemma DisabledAxisIdle(rs: RefreshState, fs: Node, now: int, pagesAt: int, filesAt: int, waitFrom: int)
    requires Valid(rs.node)
    ensures var t := RefreshTick(rs, fs, now, pagesAt, filesAt, waitFrom);
      rs.pageInterval <= 0 && t.Continue? ==>
        t.state.lastPages == rs.lastPages && t.state.node.servedPages == rs.node.servedPages
    ensures var t := RefreshTick(rs, fs, now, pagesAt, filesAt, waitFrom);
      rs.fileInterval <= 0 && t.Continue? ==>
        t.state.lastFiles == rs.lastFiles && t.state.node.servedFiles == rs.node.servedFiles
  {
  }

  /** A tick on which nothing is due changes nothing and never ends the loop. */
  lemma NothingDueIsIdle(rs: RefreshState, fs: Node, now: int, pagesAt: int, filesAt: int, waitFrom: int)
    requires Valid(rs.node)
    requires !RefreshDue(rs.pageInterval, rs.lastPages, now) && !RefreshDue(rs.fileInterval, rs.lastFiles, now)
    ensures RefreshTick(rs, fs, now, pagesAt, filesAt, waitFrom).Continue?
    ensures RefreshTick(rs, fs, now, pagesAt, filesAt, waitFrom).state == rs
  {
  }

  /** The loop ends exactly when a due rescan raises, that is when its
      root is a regular file. */
  lemma RefreshStopsOnlyOnFailure(rs: RefreshState, fs: Node, now: int, pagesAt: int, filesAt: int, waitFrom: int)
    requires Valid(rs.node)
    ensures var n := rs.node;
      RefreshTick(rs, fs, now, pagesAt, filesAt, waitFrom).Stopped? <==>
        || (RefreshDue(rs.pageInterval, rs.lastPages, now) && Scan(fs, Join(n.cwd, n.pagesPath), Pages).None?)
        || (RefreshDue(rs.fileInterval, rs.lastFiles, now) && Scan(fs, Join(n.cwd, n.filesPath), AllFiles).None?)
  {
  }
}

=== FILE: text.dfy ===
/** Bytes and the few string operations of Python's `str`/`bytes` that the
    node relies on: `startswith`, `endswith`, `strip` and ASCII encoding. */
module Text {

  newtype byte = b: int | 0 <= b < 256

  type Bytes = seq<byte>

  predicate StartsWith<T(==)>(s: seq<T>, prefix: seq<T>) {
    |prefix| <= |s| && s[..|prefix|] == prefix
  }

  predicate EndsWith<T(==)>(s: seq<T>, suffix: seq<T>) {
    |suffix| <= |s| && s[|s| - |suffix|..] == suffix
  }

  /** A prefix of a prefix is a prefix. */
  lemma StartsWithTrans<T>(s: seq<T>, p: seq<T>, q: seq<T>)
    requires StartsWith(s, p) && StartsWith(p, q)
    ensures StartsWith(s, q)
  {
    assert s[..|q|] == s[..|p|][..|q|];
  }

  /** UTF-8 encoding of one Unicode scalar value. */
  function Utf8Char(c: char): (b: Bytes)
    ensures 1 <= |b| <= 4
    ensures c as int < 0x80 <==> |b| == 1
    ensures c as int < 0x80 ==> b[0] as int == c as int
  {
    var n := c as int;
    if n < 0x80 then [n as byte]
    else if n < 0x800 then [(0xC0 + n / 0x40) as byte, (0x80 + n % 0x40) as byte]
    else if n < 0x1_0000 then
      [(0xE0 + n / 0x1000) as byte, (0x80 + (n / 0x40) % 0x40) as byte, (0x80 + n % 0x40) as byte]
    else
      [(0xF0 + n / 0x4_0000) as byte, (0x80 + (n / 0x1000) % 0x40) as byte,
       (0x80 + (n / 0x40) % 0x40) as byte, (0x80 + n % 0x40) as byte]
  }

  /** `s.encode("utf-8")`. */
  function Utf8(s: string): (b: Bytes)
    ensures |b| >= |s|
  {
    if s == [] then [] else Utf8Char(s[0]) + Utf8(s[1..])
  }

  predicate Ascii(s: string) {
    forall i :: 0 <= i < |s| ==> s[i] as int < 0x80
  }

  /** An ASCII string is encoded byte for byte. */
  lemma {:induction false} Utf8Ascii(s: string)
    requires Ascii(s)
    ensures |Utf8(s)| == |s| && forall i :: 0 <= i < |s| ==> Utf8(s)[i] as int == s[i] as int
    decreases |s|
  {
    if s != [] {
      var h := Utf8Char(s[0]);
      var t := Utf8(s[1..]);
      assert Ascii(s[1..]) by {
        assert forall i :: 0 <= i < |s| - 1 ==> s[1..][i] == s[i + 1];
      }
      Utf8Ascii(s[1..]);
      assert Utf8(s) == h + t;
      forall i | 0 <= i < |s| ensures Utf8(s)[i] as int == s[i] as int {
        if i > 0 {
          assert (h + t)[i] == t[i - 1] && s[1..][i - 1] == s[i];
        }
      }
    }
  }

  /** Encoding works character by character: the encoding of a
      concatenation is the concatenation of the encodings. */
  lemma {:induction false} Utf8Append(a: string, b: string)
    ensures Utf8(a + b) == Utf8(a) + Utf8(b)
    decreases |a|
  {
    if a != [] {
      assert (a + b)[0] == a[0] && (a + b)[1..] == a[1..] + b;
      Utf8Append(a[1..], b);
      assert Utf8(a + b) == Utf8Char(a[0]) + (Utf8(a[1..]) + Utf8(b));
      assert Utf8(a) == Utf8Char(a[0]) + Utf8(a[1..]);
    } else {
      assert a + b == b;
    }
  }

  /** The characters for which Python's `str.isspace()` holds, the set
      stripped by `str.strip()` with no argument. */
  predicate IsSpace(c: char) {
    || c == ' '
    || ('\t' <= c <= '\r')
    || ('\U{1c}' <= c <= '\U{1f}')
    || c == '\U{85}' || c == '\U{a0}' || c == '\U{1680}'
    || ('\U{2000}' <= c <= '\U{200a}')
    || c == '\U{2028}' || c == '\U{2029}' || c == '\U{202f}'
    || c == '\U{205f}' || c == '\U{3000}'
  }

  predicate AllSpace(s: string) {
    forall i :: 0 <= i < |s| ==> IsSpace(s[i])
  }

  /** Neither end of `s` is whitespace (vacuously true of ""). */
  predicate Trimmed(s: string) {
    |s| == 0 || (!IsSpace(s[0]) && !IsSpace(s[|s| - 1]))
  }

  /** Number of whitespace characters at the start of `s`. */
  function LeadingSpace(s: string): (n: nat)
    ensures n <= |s|
    ensures AllSpace(s[..n])
    ensures n < |s| ==> !IsSpace(s[n])
  {
    if |s| == 0 || !IsSpace(s[0]) then 0
    else
      var n := 1 + LeadingSpace(s[1..]);
      assert s[..n] == [s[0]] + s[1..][..n - 1];
      n
  }

  /** Number of whitespace characters at the end of `s`. */
  function TrailingSpace(s: string): (n: nat)
    ensures n <= |s|
    ensures AllSpace(s[|s| - n..])
    ensures n < |s| ==> !IsSpace(s[|s| - n - 1])
  {
    if |s| == 0 || !IsSpace(s[|s| - 1]) then 0
    else
      var t := s[..|s| - 1];
      var n := 1 + TrailingSpace(t);
      assert forall i :: |s| - n <= i < |s| - 1 ==> s[i] == t[i];
      n
  }

  /** Python's `s.strip()`: `s` without its leading and trailing whitespace. */
  function Strip(s: string): (r: string)
    ensures Trimmed(r)
  {
    var t := s[LeadingSpace(s)..];
    var r := t[..|t| - TrailingSpace(t)];
    assert |r| > 0 ==> r[0] == t[0];
    r
  }

  /** The strip of `s` is `s` with only whitespace cut from either end. */
  lemma StripInfix(s: string)
    ensures exists a ::
      (0 <= a <= |s| - |Strip(s)| && s[a..a + |Strip(s)|] == Strip(s) &&
       AllSpace(s[..a]) && AllSpace(s[a + |Strip(s)|..]))
  {
    var a := LeadingSpace(s);
    var t := s[a..];
    var b := TrailingSpace(t);
    var r := t[..|t| - b];
    assert Strip(s) == r;
    assert s[a..a + |r|] == r;
    assert AllSpace(s[a + |r|..]) by {
      assert s[a + |r|..] == t[|t| - b..];
    }
    assert 0 <= a <= |s| - |r| && s[a..a + |r|] == r && AllSpace(s[..a]) && AllSpace(s[a + |r|..]);
  }

  lemma {:induction false} LeadingSpacePrefix(w: string, t: string)
    requires AllSpace(w)
    ensures LeadingSpace(w + t) == |w| + LeadingSpace(t)
  {
    if |w| > 0 {
      assert (w + t)[1..] == w[1..] + t;
      LeadingSpacePrefix(w[1..], t);
    } else {
      assert w + t == t;
    }
  }

  lemma {:induction false} TrailingSpaceSuffix(t: string, w: string)
    requires AllSpace(w)
    ensures TrailingSpace(t + w) == |w| + TrailingSpace(t)
  {
    if |w| > 0 {
      assert (t + w)[..|t + w| - 1] == t + w[..|w| - 1];
      TrailingSpaceSuffix(t, w[..|w| - 1]);
    } else {
      assert t + w == t;
    }
  }

  /** Stripping removes exactly surrounding whitespace: padding a trimmed
      string with whitespace on both sides and stripping gives it back. */
  lemma StripPadded(w1: string, s: string, w2: string)
    requires AllSpace(w1) && AllSpace(w2) && Trimmed(s)
    ensures Strip(w1 + s + w2) == s
  {
    var x := w1 + s + w2;
    assert x == w1 + (s + w2);
    LeadingSpacePrefix(w1, s + w2);
    if |s| == 0 {
      assert s + w2 == w2;
      LeadingSpacePrefix(w2, "");
      assert w2 + "" == w2;
    } else {
      assert (s + w2)[0] == s[0];
      assert LeadingSpace(x) == |w1|;
      assert x[|w1|..] == s + w2;
      TrailingSpaceSuffix(s, w2);
    }
  }

  /** Stripping adds no character. */
  lemma StripKeepsOut(s: string, c: char)
    requires c !in s
    ensures c !in Strip(s)
  {
    var a := LeadingSpace(s);
    var t := s[a..];
    var r := t[..|t| - TrailingSpace(t)];
    assert Strip(s) == r;
    forall j | 0 <= j < |r| ensures r[j] != c {
      assert r[j] == s[a + j];
    }
  }

  /** A trimmed string is its own strip. */
  lemma StripTrimmed(s: string)
    requires Trimmed(s)
    ensures Strip(s) == s
  {
    StripPadded("", s, "");
    assert "" + s + "" == s;
  }

  /** Stripping a string whose first non-blank character follows a run of
      whitespace starts at that character. */
  lemma StripStart(w: string, t: string)
    requires AllSpace(w) && |t| > 0 && !IsSpace(t[0])
    ensures Strip(w + t) == t[..|t| - TrailingSpace(t)]
    ensures |Strip(w + t)| > 0 && Strip(w + t)[0] == t[0]
  {
    LeadingSpacePrefix(w, t);
    assert LeadingSpace(t) == 0;
    assert (w + t)[|w|..] == t;
  }
}

=== FILE: wrappers.dfy ===
/** The optional value used wherever the node's Python code returns `None`
    or raises an error that its caller turns into a fallback. */
module Wrappers {

  datatype Option<+T> = None | Some(value: T)
}
